=== FILE: README.md ===
# bbox_exporter core in Dafny

A model of the two layers of the Bbox router Prometheus exporter:

- **fetch and aggregation** (`bbox/*.go`): `NewClient` validates the
  endpoint; `apiRequest` forms a URL, issues one GET and decodes the body. The
  group fetchers (device, WAN, LAN, DNS, services, wireless) issue their
  requests in a fixed order and stop at the first failure, and `GetMetrics`
  runs the groups device, WAN, LAN, DNS, services in that order with the same
  fail-fast discipline;
- **projection** (`exporter/*.go`): every `store*Metrics` function turns a
  record into constant gauges, and every `describe*Metrics` function lists
  descriptors. `Collect` sends `up = 0` on a fetch error, and otherwise the WAN
  gauges, the FTTH state gauge and `up = 1`; `Describe` announces `up` and the
  WAN descriptors.

How the model is built:

- **The network** is a parameter. A `Server` maps each URL to a `Reply`:
  either the transport failed, or a body arrived that is well-typed JSON of one
  of the decoded shapes or malformed. Each fetch carries the trace of URLs it
  requested, which is the request log line of `apiRequest`.
- **Fail-fast** is stated once, as `FailFast(r, steps)` against the reference
  function `FirstFailure`. Group runs are composed with `Then`.
- **Gauges** are `Sample(desc, labels, value)` values, and a projector's output
  is the sequence of samples in the order it sends them. `Desc` enumerates the
  package-level descriptors, with their fully qualified names and variable
  labels. Go `float64` becomes `real`. Go `int` becomes `int`, and the
  projectors convert it with `as real`. The LAN and Wi-Fi counters, declared
  as `flexInt`, become `real` fields directly, with no conversion.
- **Indexing `[0]` without a check** becomes a precondition, for example
  `WanProjectable` or `DeviceProjectable`.

Where the repository's documented design and its code differ, the model
follows the code:

- there is no authentication and no cookie handling;
- no host counting and no error wrapping;
- the group order is device, WAN, LAN, DNS, services.

Six places in the code cannot compile or run as written. The model chooses
the evident intent for each:

- `Collect` passes `resp.Wan.IPStatistics[0]` to `storeWanMetrics`, which takes
  a whole WAN record (`exporter/exporter.go:74`). The model passes the WAN
  record.
- `storeWanMetrics` reads `DiagnosticsStatistics`, a field the WAN record
  (`bbox/wan.go:21-25`) does not declare. The model's WAN record has this
  field, and `getWanMetrics` never fills it. `Exporter.FetchedWanNotProjectable`
  proves that no successful `GetMetrics` result meets the WAN projector's
  indexing requirement.
- The device, LAN, DNS, services and Wi-Fi fetchers pass request patterns
  without a "%s" verb, for example `apiRequest("/device", ...)` at
  `bbox/device.go:107`, so they request "/device%!(EXTRA string=<url>)".
  The model's fetchers use "%s" + path, as the WAN fetchers already do
  (`bbox/wan.go:125`). Their rows below describe that corrected URL; the
  row under "## Findings" records the discrepancy.
- The WAN byte counters are declared as strings but converted with
  `float64(...)`. They are modelled as numbers.
- `getLanInformations`, `getLanDevices`, `getLanStatistics` and
  `getWirelessStatistics` log through `client.logger`
  (`bbox/lan.go:157,168,179`, `bbox/wireless.go:70`), but the client record
  declares only `URL` (`bbox/client.go:55-57`). The model leaves logging out,
  so the line has no counterpart.
- `storeLanMetrics` passes the `flexInt` counters of the LAN statistics
  (`bbox/lan.go:93-102`) straight to `storeMetric`'s `float64` parameter
  (`exporter/lan.go:81-88`), with no `float64(...)` conversion, unlike
  `exporter/wireless.go:88-95`. The model's `LinkCounters` record holds these
  counters as `real`, so `StoreLanMetrics` passes them through unchanged.

## Model

Definitions without a contract of their own are covered by the rows of the
members that use them: `BboxApi.Format` (`fmt.Sprintf`, `bbox/client.go:121`)
by the two pattern lemmas; `Exporter.Describe` (`exporter/exporter.go:56-59`)
by `Exporter.DescribeDistinct` and `Exporter.CollectDescribed`. The
`describe*Metrics` tables are covered by the projector contracts that relate
each projector's descriptors to its table (LAN, Wi-Fi, DNS, services), by
`ExportDevice.DeviceDescribeOmitsMemoryAndProcess` for the device table, and
by `ExportWan.WanNeverCountsOutcomes` and `Exporter.DescribeDistinct` for the
WAN table.

| member | source | states |
|---|---|---|
| BboxApi.NewClient | bbox/client.go:59-68 | the client is created exactly when the endpoint parses with scheme "https"; its URL is the re-rendered endpoint followed by "/api/v1"; a parse failure carries its cause and a wrong scheme carries none |
| BboxApi.PrefixedPatternFormsUrl | bbox/client.go:120-121 | a pattern "%s" + path is accepted by the formatter and names the client URL followed by the path |
| BboxApi.UnprefixedPatternMisformsUrl | bbox/device.go:107 | a pattern "/device" without "%s" formats to the path followed by "%!(EXTRA string=<client URL>)", which differs from client URL + path and starts with '/' |
| BboxApi.ApiRequest | bbox/client.go:120-135 | exactly one URL is requested; a transport failure is returned unchanged; a malformed body gives a syntax error with its reason; a well-formed body of the target shape gives exactly the decoded document, and one of another shape gives a mismatch error |
| BboxApi.FirstFailure | bbox/client.go:82-117 | the first failing step: every earlier step succeeded and the step itself failed, or none failed |
| BboxApi.Then | bbox/client.go:82-94 | the second fetch counts only when the first succeeded: success exactly when both succeed; the first error stops the run with the first fetch's trace only; otherwise the traces are joined |
| BboxApi.ThenFailFast | bbox/client.go:77-118 | running one fetch before a fail-fast run gives a fail-fast run over the extended step list |
| BboxApi.FailFastFollowsPlan | bbox/device.go:78-100 | if each step requests a prefix of its plan (all of it on success), a fail-fast run requests a prefix of the joined plans, all of them on success |
| BboxApi.ThenFollowsPlan | bbox/client.go:77-118 | two runs in sequence request a prefix of their joined plans, all of it on success |
| BboxDevice.GetDeviceInformations | bbox/device.go:104-111 | one request to /device; transport, syntax and mismatch errors pass through unchanged; success exactly when the router delivered the device array, which is returned as is |
| BboxDevice.GetDeviceCpu | bbox/device.go:115-122 | one request to /device/cpu; transport, syntax and mismatch errors pass through unchanged; success exactly when the CPU array was delivered |
| BboxDevice.GetDeviceMemory | bbox/device.go:126-133 | one request to /device/mem; transport, syntax and mismatch errors pass through unchanged; success exactly when the memory array was delivered |
| BboxDevice.GetDeviceMetrics | bbox/device.go:78-100 | informations, CPU, memory run fail-fast; on success each field is the array its request delivered |
| BboxDevice.DeviceFollowsPlan | bbox/device.go:78-100 | the device group requests a prefix of /device, /device/cpu, /device/mem, and all three on success |
| BboxWan.GetWanInformations | bbox/wan.go:122-129 | one request to /wan/ip; transport, syntax and mismatch errors pass through unchanged; success exactly when that array was delivered |
| BboxWan.GetWanStatistics | bbox/wan.go:133-151 | one request to /wan/ip/stats; transport, syntax and mismatch errors pass through unchanged; success exactly when that array was delivered |
| BboxWan.GetWanFtthStatistics | bbox/wan.go:155-162 | one request to /wan/ftth/stats; transport, syntax and mismatch errors pass through unchanged; a successful result is never nil and holds the delivered array |
| BboxWan.GetWanMetrics | bbox/wan.go:96-118 | informations, statistics, FTTH run fail-fast; on success the fields hold the delivered arrays and the diagnostics stay empty |
| BboxWan.WanFollowsPlan | bbox/wan.go:96-118 | the WAN group requests a prefix of /wan/ip, /wan/ip/stats, /wan/ftth/stats, and all three on success |
| BboxLan.GetLanInformations | bbox/lan.go:156-163 | one request to /lan/ip; transport, syntax and mismatch errors pass through unchanged; success exactly when that array was delivered |
| BboxLan.GetLanDevices | bbox/lan.go:167-174 | one request to /hosts; transport, syntax and mismatch errors pass through unchanged; success exactly when that array was delivered |
| BboxLan.GetLanStatistics | bbox/lan.go:178-185 | one request to /lan/stats; transport, syntax and mismatch errors pass through unchanged; success exactly when that array was delivered |
| BboxLan.GetLanMetrics | bbox/lan.go:136-152 | statistics then hosts, fail-fast; on success both fields hold the delivered arrays and the IP informations stay empty |
| BboxLan.LanFollowsPlan | bbox/lan.go:136-152 | the LAN group requests a prefix of /lan/stats, /hosts, only /lan/stats when that fails, and never /lan/ip |
| BboxDns.GetDnsAverage | bbox/dns.go:46-53 | one request to /dns/stats; transport, syntax and mismatch errors pass through unchanged; success exactly when that array was delivered |
| BboxDns.GetDnsMetrics | bbox/dns.go:32-42 | fails exactly when its one request fails, with the same error; on success `principal` is the delivered array |
| BboxServices.GetServicesInformations | bbox/service.go:120-127 | one request to /services; transport, syntax and mismatch errors pass through unchanged; success exactly when that array was delivered |
| BboxServices.GetServicesMetrics | bbox/service.go:106-116 | fails exactly when its one request fails, with the same error; on success the group holds the delivered array |
| BboxWireless.GetWirelessStatistics | bbox/wireless.go:69-77 | one request to /wireless/<band>/stats; transport, syntax and mismatch errors pass through unchanged; success exactly when that array was delivered |
| BboxWireless.GetWirelessMetrics | bbox/wireless.go:51-67 | only band "24" is requested; its error is returned unchanged; on success the 5 GHz statistics are empty |
| BboxMetrics.GetMetrics | bbox/client.go:77-118 | device, WAN, LAN, DNS, services run fail-fast: the first failing group's error is the result and no later group runs; on success every field is its fetcher's result and the FTTH state stays empty |
| BboxMetrics.GetMetricsFollowsPlan | bbox/client.go:77-118 | a collection requests a prefix of the fixed URL order of the five groups, and all of it on success |
| BboxMetrics.PlanOmitsWirelessAndIptv | bbox/client.go:77-118 | no URL of the collection plan is a Wi-Fi statistics URL of any band or the IPTV URL |
| BboxMetrics.NoWirelessNorIptvRequest | bbox/client.go:77-118 | GetMetrics never requests Wi-Fi statistics nor IPTV, on any server behaviour |
| Samples.StoreMetric | exporter/exporter.go:82-85 | one gauge with the given descriptor, value and label values, well-formed when there is one value per variable label |
| ExportWan.FirstTried | exporter/wan.go:177-184 | the position of the first attempt with a positive try count: every earlier attempt has none, or no attempt qualifies |
| ExportWan.ProbeSamples | exporter/wan.go:179-181 | minimum, maximum and average of one attempt, in that order, each labelled with the mode |
| ExportWan.StoreProbe | exporter/wan.go:177-200 | one `range ... break` loop: the samples of the first qualifying attempt, or nothing when none qualifies |
| ExportWan.StoreWanCounters | exporter/wan.go:161-174 | 14 unlabelled gauges, transmit counters then receive counters, with the record's values in the same order |
| ExportWan.StoreWanMetrics | exporter/wan.go:159-201 | the 14 counters come first, followed by the DNS, then ping, then HTTP samples of each mode's first qualifying attempt, three per mode that has one |
| ExportWan.WanSamplesShape | exporter/wan.go:159-201 | every WAN sample uses a counter or min/max/avg descriptor, the latter only after the counters, with one value per variable label |
| ExportWan.WanModeSamples | exporter/wan.go:177-200 | the samples labelled with a mode are exactly that mode's probe, and there are none when no attempt of that mode qualifies |
| ExportWan.LaterAttemptsIgnored | exporter/wan.go:177-184 | attempts after the first qualifying one never change the samples |
| ExportWan.WanSampleCount | exporter/wan.go:159-201 | a WAN projection sends between 14 and 23 samples |
| ExportWan.WanFirstRecordsOnly | exporter/wan.go:159-201 | only the first IP statistics and first diagnostics records are read |
| ExportWan.WanNeverCountsOutcomes | exporter/wan.go:154-201 | the success, error and tries descriptors are described but never given a sample |
| ExportWan.DnsSkipsUntriedAttempt | exporter/wan.go:177-184 | a zero-try DNS attempt is skipped and the next qualifying one is reported with its min, max and average |
| ExportWan.ToUpper | exporter/wan.go:205 | upper-casing keeps the length, leaves no lower-case ASCII letter, turns each one into its capital and keeps every other character in place |
| ExportWan.ToUpperIdempotent | exporter/wan.go:205 | upper-casing an upper-cased state changes nothing |
| ExportWan.StoreWanFtthMetric | exporter/wan.go:203-211 | one unlabelled FTTH state gauge, 1 exactly when the state upper-cases to "UP", else 0 |
| ExportWan.FtthCaseInsensitive | exporter/wan.go:203-211 | two states with the same upper-case form give the same FTTH gauge |
| ExportWan.FtthUpAndDown | exporter/wan.go:203-211 | "up", "Up" and "UP" give 1; "down", "Down" and "" give 0 |
| ExportDevice.StoreDeviceMetrics | exporter/device.go:124-141 | 16 unlabelled gauges in declaration order, valued from the first informations, memory and CPU records |
| ExportDevice.InformationSamples | exporter/device.go:126-128 | status, number of boots and current temperature of the informations record |
| ExportDevice.MemorySamples | exporter/device.go:129-131 | total, free and cached memory of the memory record |
| ExportDevice.CpuSamples | exporter/device.go:132-141 | the seven CPU times then the three process counts of the CPU record |
| ExportDevice.DeviceDescribeOmitsMemoryAndProcess | exporter/device.go:111-141 | a stored device descriptor is described exactly when it is not a memory or process descriptor, and everything described is stored |
| ExportDevice.DeviceFirstRecordsOnly | exporter/device.go:124-141 | only the first record of each of the three sequences is read |
| ExportServices.StoreServicesMetrics | exporter/service.go:35-54 | the 16 calls, in source order, give exactly one `service_status` gauge per entry of the name table, labelled with that name and valued with the matching `Enable` flag; every gauge uses the descriptor describeServicesMetrics announces, with one value per variable label |
| ExportServices.ServiceLabelsDistinct | exporter/service.go:37-52 | the 16 service names are pairwise distinct |
| ExportServices.OnlyEnableFlagsMatter | exporter/service.go:35-54 | two records with the same `Enable` flags give the same gauges |
| ExportLan.StoreLanMetrics | exporter/lan.go:68-88 | eight unlabelled gauges using exactly the described LAN descriptors in order, transmit values then receive values |
| ExportLan.StoreWirelessMetrics | exporter/wireless.go:68-97 | eight gauges using the described Wi-Fi descriptors after `hosts`, from the first 2.4 GHz record, all labelled "24ghz" |
| ExportLan.No5GhzSamples | exporter/wireless.go:80-97 | no gauge carries "5ghz", and neither the 5 GHz statistics nor later 2.4 GHz records affect the output |
| ExportDns.StoreDnsMetrics | exporter/dns.go:47-59 | four unlabelled gauges using exactly the described DNS descriptors in order, valued from the first record |
| Exporter.Collect | exporter/exporter.go:63-80 | on error exactly one `up = 0`; on success the WAN samples, then the FTTH state gauge, then `up = 1` last |
| Exporter.CollectOneUp | exporter/exporter.go:63-80 | every scrape sends exactly one `up` sample |
| Exporter.CollectDescribed | exporter/exporter.go:56-80 | every descriptor a scrape uses is announced by Describe |
| Exporter.CollectWellFormed | exporter/exporter.go:63-85 | every gauge a scrape sends has one value per variable label, so no MustNewConstMetric call panics |
| Exporter.DescribeDistinct | exporter/exporter.go:56-59 | Describe announces 22 descriptors, `up` first, none twice |
| Exporter.FetchedWanNotProjectable | bbox/wan.go:96-118 | no successful collection holds the diagnostics record that storeWanMetrics indexes |
| Exporter.FetchedFtthIsZero | bbox/client.go:77-118 | a successful collection leaves the FTTH state empty, so its gauge is always 0 |

## Left out

- Logging, HTTP headers (`setupHeaders`) and the ignored `ioutil.ReadAll` error: they do not affect any result.
- JSON decoding, including the decoder of `flexInt` that the LAN and Wi-Fi records use (`bbox/lan.go:72,93-102`, `bbox/wireless.go:35-44`) and whose definition is not part of this model: a delivered body is either malformed or already typed, and a well-formed document of another shape is a mismatch error.
- `net/url.Parse` is a parameter of `NewClient`, because it is library code.
- `BboxApi.ApiRequest`: `fmt.Sprintf` is modelled only for patterns free of '%', or with a single leading "%s". The source's patterns are all of these kinds.
- BboxDevice.GetDeviceInformations, BboxDevice.GetDeviceCpu, BboxDevice.GetDeviceMemory, BboxLan.GetLanInformations, BboxLan.GetLanDevices, BboxLan.GetLanStatistics, BboxDns.GetDnsAverage, BboxServices.GetServicesInformations and BboxWireless.GetWirelessStatistics request the corrected URL (client URL + path). The source's patterns without "%s" would request the path followed by "%!(EXTRA string=<url>)", as `BboxApi.UnprefixedPatternMisformsUrl` states.
- `BboxWireless.GetWirelessStatistics`: requires a band name free of '%', for the same reason.
- `ExportWan.ToUpper`: maps ASCII letters only. Unicode case mapping is not modelled, and only ASCII decides whether a state reads "UP".
- `Exporter.Collect`: requires the WAN record to hold what storeWanMetrics indexes. Otherwise the source panics, and the model has no panics.
- IPTV (`bbox/iptv.go`, `exporter/iptv.go`), `bbox/errors.go`, the program entry point `bbox_exporter.go` and `NewExporter` are not part of this model.
- The Prometheus channel and registry: a projector's output is the sequence of gauges it would send.
- The declaration of the `hosts` descriptor is not in the modelled files. It appears as a descriptor without a name.
- The `describe*Metrics` functions of the device, LAN, Wi-Fi, DNS and services groups are modelled as constant sequences. Describe never calls them.
- Record fields: the records keep the fields the exporter reads, plus enough of the others to state that the exporter ignores them. The remaining JSON fields of the API documents (for example most of a LAN host's fields in `bbox/lan.go:33-60`) are dropped, because no fetcher or projector uses them.

## Findings

| source | as written | input that shows it | evidently intended | confidence | as-written member | corrected member |
|---|---|---|---|---|---|---|
| bbox/device.go:107 | `apiRequest("/device", ...)` formats the pattern with `fmt.Sprintf(request, client.URL)`, and the pattern has no "%s" verb. The same holds for /device/cpu, /device/mem, /lan/stats, /hosts, /dns/stats, /services and /wireless/24/stats | client URL "https://192.168.1.254/api/v1" gives "/device%!(EXTRA string=https://192.168.1.254/api/v1)" | "%s/device", as the WAN fetchers write it (bbox/wan.go:125) | high, not executed | BboxApi.UnprefixedPatternMisformsUrl | BboxApi.PrefixedPatternFormsUrl |

=== FILE: api.dfy ===
/** The router API client (bbox/client.go): endpoint validation, request URL
    formation, one request with its error pass-through, and the fail-fast
    discipline every fetcher follows.

    The network and the JSON decoder are not modelled: a `Server` says what
    each URL answers, and a document that arrives is already typed. */
module BboxApi {
  import opened Wrappers
  import opened BboxRecords

  const ApiVersion: string := "/api/v1"

  datatype Error =
    | Transport(reason: string)              // http.Get failed
    | Syntax(reason: string)                 // the body is not valid JSON
    | Mismatch                               // valid JSON of another shape than the target
    | InvalidAddress(cause: Option<string>)  // NewClient refused the endpoint
  {
    predicate IsDecodeError() { Syntax? || Mismatch? }
  }

  /** What `net/url` makes of an endpoint: its scheme and its re-rendered text. */
  datatype ParsedUrl = ParsedUrl(scheme: string, text: string)

  datatype Client = Client(url: string)

  /** A JSON document of one of the shapes the fetchers decode into. */
  datatype Payload =
    | DeviceInformationsDoc(deviceInformations: seq<DeviceInformations>)
    | DeviceCpuDoc(cpu: seq<DeviceCPU>)
    | DeviceMemoryDoc(memory: seq<DeviceMemory>)
    | WanIPInformationsDoc(wanIPInformations: seq<WanIPInformations>)
    | WanIPStatisticsDoc(wanIPStatistics: seq<WanIPStatistics>)
    | FtthStatisticsDoc(ftth: seq<Ftth>)
    | LanIPInformationsDoc(lanIPInformations: seq<LanIPInformations>)
    | LanDevicesDoc(lanDevices: seq<LanDevice>)
    | LanStatisticsDoc(lanStatistics: seq<LanStatistics>)
    | ServicesDoc(services: seq<ServicesInformations>)
    | DnsDoc(dns: seq<DnsAverage>)
    | WirelessDoc(wireless: seq<WirelessStatistics>)

  datatype Body = Json(doc: Payload) | Malformed(reason: string)

  /** The outcome of one GET: the transport failed, or a body arrived. */
  datatype Reply = Unreachable(reason: string) | Delivered(body: Body)

  /** What the router answers to each URL during one collection. */
  type Server = string -> Reply

  /** NewClient: the endpoint must parse and its scheme must be exactly
      "https"; the client URL is the re-rendered endpoint followed by the API
      version prefix. A wrong scheme carries no cause (Go formats the nil
      parse error). `parse` stands for `net/url.Parse`. */
  function NewClient(endpoint: string, parse: string -> Result<ParsedUrl, string>): (r: Result<Client, Error>)
    ensures r.Ok? <==> parse(endpoint).Ok? && parse(endpoint).value.scheme == "https"
    ensures r.Ok? ==> r.value.url == parse(endpoint).value.text + ApiVersion
    ensures r.Ok? ==> |r.value.url| >= |ApiVersion| && r.value.url[|r.value.url| - |ApiVersion|..] == ApiVersion
    ensures parse(endpoint).Err? ==> r == Err(InvalidAddress(Some(parse(endpoint).error)))
    ensures parse(endpoint).Ok? && r.Err? ==> r == Err(InvalidAddress(None))
  {
    match parse(endpoint)
    case Err(e) => Err(InvalidAddress(Some(e)))
    case Ok(u) =>
      if u.scheme != "https" then Err(InvalidAddress(None))
      else Ok(Client(u.text + ApiVersion))
  }

  // ---- URL formation ----

  /** The request patterns the fetchers pass: either free of '%', or a single
      leading "%s" followed by text free of '%'. */
  predicate ValidPattern(pattern: string) {
    '%' !in pattern || (|pattern| >= 2 && pattern[..2] == "%s" && '%' !in pattern[2..])
  }

  predicate HasPlaceholder(pattern: string) {
    |pattern| >= 2 && pattern[..2] == "%s"
  }

  /** `fmt.Sprintf(pattern, arg)` for a valid pattern: the leading "%s" is
      replaced by `arg`; a pattern without verb keeps its text and Go appends
      the unused argument as "%!(EXTRA string=...)". */
  function Format(pattern: string, arg: string): (url: string)
    requires ValidPattern(pattern)
  {
    if HasPlaceholder(pattern) then arg + pattern[2..]
    else pattern + "%!(EXTRA string=" + arg + ")"
  }

  /** The URL a "%s"-prefixed pattern names: the client URL followed by the
      path. This is what every fetcher of this model requests. */
  lemma PrefixedPatternFormsUrl(path: string, base: string)
    requires '%' !in path
    ensures ValidPattern("%s" + path)
    ensures Format("%s" + path, base) == base + path
  {
    var p := "%s" + path;
    assert p[..2] == "%s";
    assert p[2..] == path;
  }

  /** The URL a pattern without "%s" names, as bbox/device.go, bbox/lan.go,
      bbox/service.go, bbox/dns.go and bbox/wireless.go write theirs: the
      path comes first and the client URL only inside the EXTRA suffix, so
      the result is not the client URL followed by the path. */
  lemma UnprefixedPatternMisformsUrl(path: string, base: string)
    requires '%' !in path && |path| > 0 && path[0] == '/'
    requires |base| > 0 && base[0] != '/'
    ensures ValidPattern(path)
    ensures Format(path, base) == path + "%!(EXTRA string=" + base + ")"
    ensures Format(path, base) != base + path
    ensures Format(path, base)[0] == '/'
  {
    assert Format(path, base)[0] == path[0];
    assert (base + path)[0] == base[0];
  }

  /** The URL of an API path under client `c`. */
  function Url(c: Client, path: string): string {
    c.url + path
  }

  // ---- one request ----

  /** A fetch result together with the URLs requested to obtain it, in
      request order (the request log line of apiRequest). */
  datatype Fetch<T> = Fetch(result: Result<T, Error>, trace: seq<string>)

  /** apiRequest: one GET of the formatted URL; a transport error is returned
      as it is, a body that does not decode into the target is a decode
      error, and otherwise the decoded document is the result. */
  function ApiRequest<T(==)>(c: Client, server: Server, pattern: string, decode: Payload -> Option<T>): (r: Fetch<T>)
    requires ValidPattern(pattern)
    ensures r.trace == [Format(pattern, c.url)]
    ensures server(Format(pattern, c.url)).Unreachable? ==>
      r.result == Err(Transport(server(Format(pattern, c.url)).reason))
    ensures (r.result.Err? && r.result.error.IsDecodeError()) <==>
      (server(Format(pattern, c.url)).Delivered? &&
       (server(Format(pattern, c.url)).body.Malformed? ||
        decode(server(Format(pattern, c.url)).body.doc).None?))
    ensures r.result.Ok? ==>
      server(Format(pattern, c.url)).Delivered? && server(Format(pattern, c.url)).body.Json? &&
      decode(server(Format(pattern, c.url)).body.doc) == Some(r.result.value)
    ensures PassesErrors(r.result, server(Format(pattern, c.url)))
    ensures server(Format(pattern, c.url)).Delivered? && server(Format(pattern, c.url)).body.Json? ==>
      match decode(server(Format(pattern, c.url)).body.doc)
      case Some(v) => r.result == Ok(v)
      case None => r.result == Err(Mismatch)
  {
    var url := Format(pattern, c.url);
    var result :=
      match server(url)
      case Unreachable(reason) => Err(Transport(reason))
      case Delivered(Malformed(reason)) => Err(Syntax(reason))
      case Delivered(Json(doc)) =>
        match decode(doc)
        case None => Err(Mismatch)
        case Some(v) => Ok(v);
    Fetch(result, [url])
  }

  /** A request to `url` that fails passes the failure on unchanged: the
      transport error, the syntax error of the body, or the mismatch error
      of a well-formed body the target cannot hold. */
  predicate PassesErrors<T>(r: Result<T, Error>, reply: Reply) {
    && (reply.Delivered? && reply.body.Json? && r.Err? ==> r.error == Mismatch)
    && (reply.Unreachable? ==> r.Err? && r.error == Transport(reply.reason))
    && (reply.Delivered? && reply.body.Malformed? ==> r.Err? && r.error == Syntax(reply.body.reason))
  }

  // ---- fail-fast sequencing ----

  /** What a sub-fetch contributed: the URLs it requested and its error, if any. */
  datatype Step = Step(trace: seq<string>, failure: Option<Error>)

  function Summary<T>(f: Fetch<T>): Step {
    Step(f.trace, if f.result.Err? then Some(f.result.error) else None)
  }

  /** The index of the first failing step, or the number of steps when none fails. */
  function FirstFailure(steps: seq<Step>): (k: nat)
    ensures k <= |steps|
    ensures forall i :: 0 <= i < k ==> steps[i].failure.None?
    ensures k < |steps| ==> steps[k].failure.Some?
  {
    if |steps| == 0 then 0
    else if steps[0].failure.Some? then 0
    else 1 + FirstFailure(steps[1..])
  }

  /** The requests of a run of steps, in order. */
  function Traces(steps: seq<Step>): seq<string> {
    if |steps| == 0 then [] else Traces(steps[..|steps| - 1]) + steps[|steps| - 1].trace
  }

  function Flatten(plans: seq<seq<string>>): seq<string> {
    if |plans| == 0 then [] else Flatten(plans[..|plans| - 1]) + plans[|plans| - 1]
  }

  /** `r` ran `steps` in order and stopped at the first failing one: its
      error is that step's error, unchanged, and no later step was issued;
      when no step fails, every step ran and `r` succeeded. */
  predicate FailFast<T>(r: Fetch<T>, steps: seq<Step>) {
    var k := FirstFailure(steps);
    if k < |steps| then
      r.result.Err? && r.result.error == steps[k].failure.value && r.trace == Traces(steps[..k + 1])
    else
      r.result.Ok? && r.trace == Traces(steps)
  }

  /** The requests of the first `j + 1` steps are those of the first `j`
      followed by those of step `j`. */
  lemma TracesSnoc(steps: seq<Step>, j: nat)
    requires j < |steps|
    ensures Traces(steps[..j + 1]) == Traces(steps[..j]) + steps[j].trace
  {
    assert steps[..j + 1][..j] == steps[..j];
  }

  lemma {:induction false} FlattenSingletons(plans: seq<seq<string>>, urls: seq<string>)
    requires |plans| == |urls|
    requires forall i :: 0 <= i < |plans| ==> plans[i] == [urls[i]]
    ensures Flatten(plans) == urls
  {
    if |plans| > 0 {
      FlattenSingletons(plans[..|plans| - 1], urls[..|urls| - 1]);
      assert urls == urls[..|urls| - 1] + [urls[|urls| - 1]];
    }
  }

  lemma {:induction false} FlattenPrefix(plans: seq<seq<string>>, j: nat)
    requires j <= |plans|
    ensures Flatten(plans[..j]) <= Flatten(plans)
    decreases |plans| - j
  {
    if j < |plans| {
      FlattenPrefix(plans, j + 1);
      assert plans[..j + 1][..j] == plans[..j];
    } else {
      assert plans[..j] == plans;
    }
  }

  lemma {:induction false} TracesFollowPlans(steps: seq<Step>, plans: seq<seq<string>>, j: nat)
    requires |steps| == |plans| && j <= |steps|
    requires forall i :: 0 <= i < j ==> steps[i].trace == plans[i]
    ensures Traces(steps[..j]) == Flatten(plans[..j])
  {
    if j > 0 {
      TracesFollowPlans(steps, plans, j - 1);
      assert steps[..j][..j - 1] == steps[..j - 1];
      assert plans[..j][..j - 1] == plans[..j - 1];
    }
  }

  /** When every step requests a prefix of its own plan, and all of it when
      it succeeds, a fail-fast run requests a prefix of the concatenated
      plans, and all of them when it succeeds. */
  lemma {:induction false} FailFastFollowsPlan<T>(r: Fetch<T>, steps: seq<Step>, plans: seq<seq<string>>)
    requires |steps| == |plans|
    requires forall i :: 0 <= i < |steps| ==> steps[i].trace <= plans[i]
    requires forall i :: 0 <= i < |steps| && steps[i].failure.None? ==> steps[i].trace == plans[i]
    requires FailFast(r, steps)
    ensures r.trace <= Flatten(plans)
    ensures r.result.Ok? ==> r.trace == Flatten(plans)
  {
    var k := FirstFailure(steps);
    TracesFollowPlans(steps, plans, k);
    if k < |steps| {
      assert steps[..k + 1][..k] == steps[..k];
      assert plans[..k + 1][..k] == plans[..k];
      assert Traces(steps[..k + 1]) == Flatten(plans[..k]) + steps[k].trace;
      assert Flatten(plans[..k + 1]) == Flatten(plans[..k]) + plans[k];
      FlattenPrefix(plans, k + 1);
    } else {
      assert steps[..k] == steps;
      assert plans[..k] == plans;
    }
  }
  /** Two fetches run in order, the second only when the first succeeded. */
  function Then<A, B>(a: Fetch<A>, b: Fetch<B>): (r: Fetch<(A, B)>)
    ensures r.result.Ok? <==> a.result.Ok? && b.result.Ok?
    ensures r.result.Ok? ==> r.result.value == (a.result.value, b.result.value)
    ensures a.result.Err? ==> r.result == Err(a.result.error) && r.trace == a.trace
    ensures a.result.Ok? ==> r.trace == a.trace + b.trace
    ensures a.result.Ok? && b.result.Err? ==> r.result == Err(b.result.error)
  {
    if a.result.Err? then Fetch(Err(a.result.error), a.trace)
    else if b.result.Err? then Fetch(Err(b.result.error), a.trace + b.trace)
    else Fetch(Ok((a.result.value, b.result.value)), a.trace + b.trace)
  }

  lemma {:induction false} TracesCons(s: Step, rest: seq<Step>)
    ensures Traces([s] + rest) == s.trace + Traces(rest)
    decreases |rest|
  {
    if |rest| > 0 {
      var n := |rest|;
      assert ([s] + rest)[..n] == [s] + rest[..n - 1];
      TracesCons(s, rest[..n - 1]);
    } else {
      assert [s] + rest == [s];
      assert [s][..0] == [];
    }
  }

  /** A single fetch runs fail-fast over its own step. */
  lemma FailFastOne<T>(a: Fetch<T>)
    ensures FailFast(a, [Summary(a)])
  {
    assert [Summary(a)][..1] == [Summary(a)];
    assert [Summary(a)][..0] == [];
  }

  /** Running a fetch before a fail-fast run is a fail-fast run over the
      longer sequence of steps. */
  lemma ThenFailFast<A, B>(a: Fetch<A>, b: Fetch<B>, rest: seq<Step>)
    requires FailFast(b, rest)
    ensures FailFast(Then(a, b), [Summary(a)] + rest)
  {
    var steps := [Summary(a)] + rest;
    assert steps[1..] == rest;
    var r := Then(a, b);
    if a.result.Err? {
      assert steps[..1] == [Summary(a)];
      assert [Summary(a)][..0] == [];
    } else {
      var k := FirstFailure(rest);
      if k < |rest| {
        assert steps[..k + 2] == [Summary(a)] + rest[..k + 1];
        TracesCons(Summary(a), rest[..k + 1]);
      } else {
        TracesCons(Summary(a), rest);
      }
    }
  }

  /** Fail-fast depends only on the trace, on success or failure, and on
      the error: changing the value of a success keeps it. */
  lemma FailFastMap<A, B>(a: Fetch<A>, b: Fetch<B>, steps: seq<Step>)
    requires FailFast(a, steps)
    requires b.trace == a.trace && b.result.Ok? == a.result.Ok?
    requires b.result.Err? ==> b.result.error == a.result.error
    ensures FailFast(b, steps)
  {
  }

  /** Two runs that each request a prefix of their own plan, and all of it
      on success, request together a prefix of the joined plans, and all
      of them on success. */
  lemma ThenFollowsPlan<A, B>(a: Fetch<A>, b: Fetch<B>, pa: seq<string>, pb: seq<string>)
    requires a.trace <= pa && (a.result.Ok? ==> a.trace == pa)
    requires b.trace <= pb && (b.result.Ok? ==> b.trace == pb)
    ensures Then(a, b).trace <= pa + pb
    ensures Then(a, b).result.Ok? ==> Then(a, b).trace == pa + pb
  {
    if a.result.Ok? {
      assert (pa + pb)[..|pa| + |b.trace|] == pa + b.trace;
    } else {
      assert (pa + pb)[..|a.trace|] == pa[..|a.trace|];
    }
  }
}

=== FILE: device.dfy ===
/** The device group fetcher (bbox/device.go): general information, then
    CPU, then memory, stopping at the first failing request. */
module BboxDevice {
  import opened Wrappers
  import opened BboxRecords
  import opened BboxApi

  const DevicePath: string := "/device"
  const CpuPath: string := "/device/cpu"
  const MemoryPath: string := "/device/mem"

  /** The URLs the device group requests, in order. */
  function DevicePlan(c: Client): seq<string> {
    [Url(c, DevicePath), Url(c, CpuPath), Url(c, MemoryPath)]
  }

  function AsDeviceInformations(doc: Payload): Option<seq<DeviceInformations>> {
    if doc.DeviceInformationsDoc? then Some(doc.deviceInformations) else None
  }

  function AsDeviceCpu(doc: Payload): Option<seq<DeviceCPU>> {
    if doc.DeviceCpuDoc? then Some(doc.cpu) else None
  }

  function AsDeviceMemory(doc: Payload): Option<seq<DeviceMemory>> {
    if doc.DeviceMemoryDoc? then Some(doc.memory) else None
  }

  /** getDeviceInformations: one request to /device; succeeds with exactly
      the array the router sent, an empty one included. */
  function GetDeviceInformations(c: Client, server: Server): (r: Fetch<seq<DeviceInformations>>)
    ensures r.trace == [Url(c, DevicePath)]
    ensures PassesErrors(r.result, server(Url(c, DevicePath)))
    ensures forall xs :: r.result == Ok(xs) <==>
      server(Url(c, DevicePath)) == Delivered(Json(DeviceInformationsDoc(xs)))
  {
    PrefixedPatternFormsUrl(DevicePath, c.url);
    ApiRequest(c, server, "%s" + DevicePath, AsDeviceInformations)
  }

  /** getDeviceCPU: one request to /device/cpu. */
  function GetDeviceCpu(c: Client, server: Server): (r: Fetch<seq<DeviceCPU>>)
    ensures r.trace == [Url(c, CpuPath)]
    ensures PassesErrors(r.result, server(Url(c, CpuPath)))
    ensures forall xs :: r.result == Ok(xs) <==>
      server(Url(c, CpuPath)) == Delivered(Json(DeviceCpuDoc(xs)))
  {
    PrefixedPatternFormsUrl(CpuPath, c.url);
    ApiRequest(c, server, "%s" + CpuPath, AsDeviceCpu)
  }

  /** getDeviceMemory: one request to /device/mem. */
  function GetDeviceMemory(c: Client, server: Server): (r: Fetch<seq<DeviceMemory>>)
    ensures r.trace == [Url(c, MemoryPath)]
    ensures PassesErrors(r.result, server(Url(c, MemoryPath)))
    ensures forall xs :: r.result == Ok(xs) <==>
      server(Url(c, MemoryPath)) == Delivered(Json(DeviceMemoryDoc(xs)))
  {
    PrefixedPatternFormsUrl(MemoryPath, c.url);
    ApiRequest(c, server, "%s" + MemoryPath, AsDeviceMemory)
  }

  function DeviceSteps(c: Client, server: Server): seq<Step> {
    [Summary(GetDeviceInformations(c, server)), Summary(GetDeviceCpu(c, server)), Summary(GetDeviceMemory(c, server))]
  }

  /** getDeviceMetrics: the three requests in order, fail-fast; on success
      each field holds exactly the array its request delivered. */
  function GetDeviceMetrics(c: Client, server: Server): (r: Fetch<DeviceMetrics>)
    ensures FailFast(r, DeviceSteps(c, server))
    ensures r.result.Ok? ==>
      && server(Url(c, DevicePath)) == Delivered(Json(DeviceInformationsDoc(r.result.value.informations)))
      && server(Url(c, CpuPath)) == Delivered(Json(DeviceCpuDoc(r.result.value.cpu)))
      && server(Url(c, MemoryPath)) == Delivered(Json(DeviceMemoryDoc(r.result.value.memory)))
  {
    var informations := GetDeviceInformations(c, server);
    TracesSnoc(DeviceSteps(c, server), 0);
    TracesSnoc(DeviceSteps(c, server), 1);
    TracesSnoc(DeviceSteps(c, server), 2);
    if informations.result.Err? then Fetch(Err(informations.result.error), informations.trace)
    else
      var cpu := GetDeviceCpu(c, server);
      if cpu.result.Err? then Fetch(Err(cpu.result.error), informations.trace + cpu.trace)
      else
        var memory := GetDeviceMemory(c, server);
        var trace := informations.trace + cpu.trace + memory.trace;
        if memory.result.Err? then Fetch(Err(memory.result.error), trace)
        else
          Fetch(Ok(DeviceMetrics(informations.result.value, memory.result.value, cpu.result.value)), trace)
  }

  /** The device group requests a prefix of /device, /device/cpu,
      /device/mem, and all three when it succeeds. */
  lemma DeviceFollowsPlan(c: Client, server: Server)
    ensures GetDeviceMetrics(c, server).trace <= DevicePlan(c)
    ensures GetDeviceMetrics(c, server).result.Ok? ==> GetDeviceMetrics(c, server).trace == DevicePlan(c)
  {
    var plans := [[Url(c, DevicePath)], [Url(c, CpuPath)], [Url(c, MemoryPath)]];
    FailFastFollowsPlan(GetDeviceMetrics(c, server), DeviceSteps(c, server), plans);
    FlattenSingletons(plans, DevicePlan(c));
  }
}

=== FILE: dns.dfy ===
/** The DNS group fetcher (bbox/dns.go): a single request. */
module BboxDns {
  import opened Wrappers
  import opened BboxRecords
  import opened BboxApi

  const DnsStatsPath: string := "/dns/stats"

  function DnsPlan(c: Client): seq<string> {
    [Url(c, DnsStatsPath)]
  }

  function AsDns(doc: Payload): Option<seq<DnsAverage>> {
    if doc.DnsDoc? then Some(doc.dns) else None
  }

  /** getDNSAverage: one request to /dns/stats. */
  function GetDnsAverage(c: Client, server: Server): (r: Fetch<seq<DnsAverage>>)
    ensures r.trace == [Url(c, DnsStatsPath)]
    ensures PassesErrors(r.result, server(Url(c, DnsStatsPath)))
    ensures forall xs :: r.result == Ok(xs) <==>
      server(Url(c, DnsStatsPath)) == Delivered(Json(DnsDoc(xs)))
  {
    PrefixedPatternFormsUrl(DnsStatsPath, c.url);
    ApiRequest(c, server, "%s" + DnsStatsPath, AsDns)
  }

  /** getDNSMetrics: exactly one request, to /dns/stats; on success
      `principal` is the delivered array. */
  function GetDnsMetrics(c: Client, server: Server): (r: Fetch<DnsMetrics>)
    ensures r.trace == DnsPlan(c)
    ensures PassesErrors(r.result, server(Url(c, DnsStatsPath)))
    ensures r.result.Err? <==> GetDnsAverage(c, server).result.Err?
    ensures r.result.Err? ==> r.result.error == GetDnsAverage(c, server).result.error
    ensures forall xs :: r.result == Ok(DnsMetrics(xs)) <==>
      server(Url(c, DnsStatsPath)) == Delivered(Json(DnsDoc(xs)))
  {
    var dns := GetDnsAverage(c, server);
    if dns.result.Err? then Fetch(Err(dns.result.error), dns.trace)
    else Fetch(Ok(DnsMetrics(dns.result.value)), dns.trace)
  }
}

=== FILE: export_device.dfy ===
/** The device projector (exporter/device.go). */
module ExportDevice {
  import opened BboxRecords
  import opened Samples

  /** The descriptors storeDeviceMetrics uses, in the order it sends them. */
  const DeviceDescs: seq<Desc> := [
    DeviceStatus, DeviceNumberOfBoots, DeviceTemperature,
    DeviceMemoryTotal, DeviceMemoryFree, DeviceMemoryCached,
    DeviceCpuTotal, DeviceCpuUser, DeviceCpuNice, DeviceCpuSystem, DeviceCpuIO, DeviceCpuIdle, DeviceCpuIrq,
    DeviceProcessCreated, DeviceProcessRunning, DeviceProcessBlocked]

  /** The exported readings of one informations, memory and CPU record, in
      the same order. */
  function DeviceValues(info: DeviceInformations, mem: DeviceMemory, cpu: DeviceCPU): seq<real> {
    [ info.status, info.numberOfBoots, info.temperature.current,
      mem.total, mem.free, mem.cached,
      cpu.time.total, cpu.time.user, cpu.time.nice, cpu.time.system, cpu.time.io, cpu.time.idle, cpu.time.irq,
      cpu.process.created, cpu.process.running, cpu.process.blocked ]
  }

  /** What storeDeviceMetrics indexes without a check. */
  predicate DeviceProjectable(m: DeviceMetrics) {
    |m.informations| > 0 && |m.memory| > 0 && |m.cpu| > 0
  }

  /** storeDeviceMetrics: 16 unlabelled gauges read from the first record of
      each of the three sequences. */
  function StoreDeviceMetrics(m: DeviceMetrics): (r: seq<Sample>)
    requires DeviceProjectable(m)
    ensures |r| == 16
    ensures Descs(r) == DeviceDescs
    ensures Values(r) == DeviceValues(m.informations[0], m.memory[0], m.cpu[0])
    ensures forall i :: 0 <= i < |r| ==> r[i].labels == []
  {
    var info, mem, cpu := InformationSamples(m.informations[0]), MemorySamples(m.memory[0]), CpuSamples(m.cpu[0]);
    DescsConcat(info, mem);
    DescsConcat(info + mem, cpu);
    ValuesConcat(info, mem);
    ValuesConcat(info + mem, cpu);
    assert DeviceDescs == DeviceDescs[..3] + DeviceDescs[3..6] + DeviceDescs[6..];
    info + mem + cpu
  }

  /** Status, number of boots and current temperature (exporter/device.go,
      the informations record). */
  function InformationSamples(info: DeviceInformations): (r: seq<Sample>)
    ensures Descs(r) == DeviceDescs[..3]
    ensures Values(r) == [info.status, info.numberOfBoots, info.temperature.current]
    ensures forall i :: 0 <= i < |r| ==> r[i].labels == []
  {
    [ Sample(DeviceStatus, [], info.status),
      Sample(DeviceNumberOfBoots, [], info.numberOfBoots),
      Sample(DeviceTemperature, [], info.temperature.current) ]
  }

  /** Total, free and cached memory. */
  function MemorySamples(mem: DeviceMemory): (r: seq<Sample>)
    ensures Descs(r) == DeviceDescs[3..6]
    ensures Values(r) == [mem.total, mem.free, mem.cached]
    ensures forall i :: 0 <= i < |r| ==> r[i].labels == []
  {
    [ Sample(DeviceMemoryTotal, [], mem.total),
      Sample(DeviceMemoryFree, [], mem.free),
      Sample(DeviceMemoryCached, [], mem.cached) ]
  }

  /** The seven CPU times, then the three process counts. */
  function CpuSamples(cpu: DeviceCPU): (r: seq<Sample>)
    ensures Descs(r) == DeviceDescs[6..]
    ensures Values(r) == [cpu.time.total, cpu.time.user, cpu.time.nice, cpu.time.system, cpu.time.io,
                          cpu.time.idle, cpu.time.irq, cpu.process.created, cpu.process.running,
                          cpu.process.blocked]
    ensures forall i :: 0 <= i < |r| ==> r[i].labels == []
  {
    [ Sample(DeviceCpuTotal, [], cpu.time.total),
      Sample(DeviceCpuUser, [], cpu.time.user),
      Sample(DeviceCpuNice, [], cpu.time.nice),
      Sample(DeviceCpuSystem, [], cpu.time.system),
      Sample(DeviceCpuIO, [], cpu.time.io),
      Sample(DeviceCpuIdle, [], cpu.time.idle),
      Sample(DeviceCpuIrq, [], cpu.time.irq),
      Sample(DeviceProcessCreated, [], cpu.process.created),
      Sample(DeviceProcessRunning, [], cpu.process.running),
      Sample(DeviceProcessBlocked, [], cpu.process.blocked) ]
  }

  /** describeDeviceMetrics: status, boots, temperature and the CPU times. */
  function DescribeDeviceMetrics(): seq<Desc> {
    [ DeviceStatus, DeviceNumberOfBoots, DeviceTemperature,
      DeviceCpuTotal, DeviceCpuUser, DeviceCpuNice, DeviceCpuSystem, DeviceCpuIO, DeviceCpuIdle, DeviceCpuIrq ]
  }

  const UndescribedDeviceDescs: seq<Desc> := [
    DeviceMemoryTotal, DeviceMemoryFree, DeviceMemoryCached,
    DeviceProcessCreated, DeviceProcessRunning, DeviceProcessBlocked]

  /** A stored device descriptor is described exactly when it is not one of
      the three memory or three process descriptors, and everything
      described is stored. */
  lemma DeviceDescribeOmitsMemoryAndProcess()
    ensures forall i :: 0 <= i < |DeviceDescs| ==>
      (DeviceDescs[i] in DescribeDeviceMetrics() <==> DeviceDescs[i] !in UndescribedDeviceDescs)
    ensures forall j :: 0 <= j < |DescribeDeviceMetrics()| ==> DescribeDeviceMetrics()[j] in DeviceDescs
    ensures |DescribeDeviceMetrics()| == 10
  {
  }

  /** Only the first element of each sequence is read. */
  lemma DeviceFirstRecordsOnly(m: DeviceMetrics, n: DeviceMetrics)
    requires DeviceProjectable(m) && DeviceProjectable(n)
    requires m.informations[0] == n.informations[0] && m.memory[0] == n.memory[0] && m.cpu[0] == n.cpu[0]
    ensures StoreDeviceMetrics(m) == StoreDeviceMetrics(n)
  {
  }
}

=== FILE: export_dns.dfy ===
/** The DNS projector (exporter/dns.go). */
module ExportDns {
  import opened BboxRecords
  import opened Samples

  /** describeDNSMetrics. */
  function DescribeDnsMetrics(): seq<Desc> {
    [DnsNumberOfQueries, DnsMin, DnsMax, Desc.DnsAverage]
  }

  /** storeDNSMetrics: four unlabelled gauges from the first record, using
      exactly the described descriptors in order. */
  function StoreDnsMetrics(m: DnsMetrics): (r: seq<Sample>)
    requires |m.principal| > 0
    ensures Descs(r) == DescribeDnsMetrics()
    ensures Values(r) == [m.principal[0].numberOfQueries, m.principal[0].min, m.principal[0].max, m.principal[0].average]
    ensures forall i :: 0 <= i < |r| ==> r[i].labels == []
  {
    var s := m.principal[0];
    [Sample(DnsNumberOfQueries, [], s.numberOfQueries), Sample(DnsMin, [], s.min),
     Sample(DnsMax, [], s.max), Sample(Desc.DnsAverage, [], s.average)]
  }
}

=== FILE: export_lan.dfy ===
/** The LAN and Wi-Fi projectors (exporter/lan.go, exporter/wireless.go). */
module ExportLan {
  import opened BboxRecords
  import opened Samples

  /** The counters of one direction in export order. */
  function CounterValues(c: LinkCounters): seq<real> {
    [c.bytes, c.packets, c.packetsErrors, c.packetsDiscards]
  }

  /** describeLanMetrics. */
  function DescribeLanMetrics(): seq<Desc> {
    [ TxBytesLan, TxPacketsLan, TxPacketsErrorsLan, TxPacketsDiscardsLan,
      RxBytesLan, RxPacketsLan, RxPacketsErrorsLan, RxPacketsDiscardsLan ]
  }

  /** storeLanMetrics: eight unlabelled gauges copied from the record,
      transmit first, using exactly the described descriptors in order. */
  function StoreLanMetrics(s: LanStatistics): (r: seq<Sample>)
    ensures Descs(r) == DescribeLanMetrics()
    ensures Values(r) == CounterValues(s.tx) + CounterValues(s.rx)
    ensures forall i :: 0 <= i < |r| ==> r[i].labels == []
  {
    [ Sample(TxBytesLan, [], s.tx.bytes), Sample(TxPacketsLan, [], s.tx.packets),
      Sample(TxPacketsErrorsLan, [], s.tx.packetsErrors), Sample(TxPacketsDiscardsLan, [], s.tx.packetsDiscards),
      Sample(RxBytesLan, [], s.rx.bytes), Sample(RxPacketsLan, [], s.rx.packets),
      Sample(RxPacketsErrorsLan, [], s.rx.packetsErrors), Sample(RxPacketsDiscardsLan, [], s.rx.packetsDiscards) ]
  }

  const WirelessDescs: seq<Desc> := [
    TxBytesWireless, TxPacketsWireless, TxPacketsErrorsWireless, TxPacketsDiscardsWireless,
    RxBytesWireless, RxPacketsWireless, RxPacketsErrorsWireless, RxPacketsDiscardsWireless]

  /** describeWirelessMetrics: `hosts`, then the eight Wi-Fi descriptors. */
  function DescribeWirelessMetrics(): seq<Desc> {
    [Hosts] + WirelessDescs
  }

  /** storeWirelessMetrics: eight gauges from the first 2.4 GHz record, all
      labelled `frequency="24ghz"`; the 5 GHz band is not exported. */
  function StoreWirelessMetrics(m: WirelessMetrics): (r: seq<Sample>)
    requires |m.wireless24GhzStatistics| > 0
    ensures [Hosts] + Descs(r) == DescribeWirelessMetrics()
    ensures Values(r) == CounterValues(m.wireless24GhzStatistics[0].tx) + CounterValues(m.wireless24GhzStatistics[0].rx)
    ensures forall i :: 0 <= i < |r| ==> r[i].labels == ["24ghz"]
  {
    var s := m.wireless24GhzStatistics[0];
    [ Sample(TxBytesWireless, ["24ghz"], s.tx.bytes), Sample(TxPacketsWireless, ["24ghz"], s.tx.packets),
      Sample(TxPacketsErrorsWireless, ["24ghz"], s.tx.packetsErrors),
      Sample(TxPacketsDiscardsWireless, ["24ghz"], s.tx.packetsDiscards),
      Sample(RxBytesWireless, ["24ghz"], s.rx.bytes), Sample(RxPacketsWireless, ["24ghz"], s.rx.packets),
      Sample(RxPacketsErrorsWireless, ["24ghz"], s.rx.packetsErrors),
      Sample(RxPacketsDiscardsWireless, ["24ghz"], s.rx.packetsDiscards) ]
  }

  /** No 5 GHz gauge is ever sent, and the 5 GHz statistics and the later
      2.4 GHz records never affect the output. */
  lemma No5GhzSamples(m: WirelessMetrics, n: WirelessMetrics)
    requires |m.wireless24GhzStatistics| > 0 && |n.wireless24GhzStatistics| > 0
    requires m.wireless24GhzStatistics[0] == n.wireless24GhzStatistics[0]
    ensures Labelled(StoreWirelessMetrics(m), ["5ghz"]) == []
    ensures StoreWirelessMetrics(m) == StoreWirelessMetrics(n)
  {
    var r := StoreWirelessMetrics(m);
    assert ["24ghz"] != ["5ghz"] by { assert "24ghz"[0] != "5ghz"[0]; }
    LabelledNone(r, ["5ghz"]);
  }
}

=== FILE: export_services.dfy ===
/** The services projector (exporter/service.go). */
module ExportServices {
  import opened BboxRecords
  import opened Samples

  /** The `name` label of each service gauge, in the order they are sent. */
  const ServiceLabels: seq<string> := [
    "firewall", "dydns", "dhcp", "nat", "gamermode", "upnp", "remote_proxywol", "remote_admin",
    "parentalcontrol", "wifischeduler", "voipscheduler", "notification", "hotspot",
    "usb_samba", "usb_printer", "user_dlna"]

  /** The `Enable` flag of each service, in label order. */
  function EnableFlags(s: ServicesInformations): seq<int> {
    [ s.firewall.enable, s.dynDns.enable, s.dhcp.enable, s.natService.enable, s.gamerMode.enable,
      s.upnpIgd.enable, s.proxyWol.enable, s.remoteAdmin.enable, s.parentalControl.enable,
      s.wifiScheduler.enable, s.voipScheduler.enable, s.notification.enable, s.hotspot.enable,
      s.usbSamba.enable, s.usbPrinter.enable, s.usbDlna.enable ]
  }

  /** storeServicesMetrics: one `service_status` gauge per service of the
      first record, labelled with its name and valued with its `Enable`
      flag, in the order of exporter/service.go:37-52. */
  function StoreServicesMetrics(m: ServicesMetrics): (r: seq<Sample>)
    requires |m.informations| > 0
    ensures |r| == |ServiceLabels|
    ensures forall i :: 0 <= i < |r| ==>
      r[i] == Sample(ServiceUp, [ServiceLabels[i]], EnableFlags(m.informations[0])[i] as real)
    ensures forall i :: 0 <= i < |r| ==> r[i].desc in DescribeServicesMetrics()
    ensures WellFormed(r)
  {
    var s := m.informations[0];
    StoreMetric(s.firewall.enable as real, ServiceUp, ["firewall"])
      + StoreMetric(s.dynDns.enable as real, ServiceUp, ["dydns"])
      + StoreMetric(s.dhcp.enable as real, ServiceUp, ["dhcp"])
      + StoreMetric(s.natService.enable as real, ServiceUp, ["nat"])
      + StoreMetric(s.gamerMode.enable as real, ServiceUp, ["gamermode"])
      + StoreMetric(s.upnpIgd.enable as real, ServiceUp, ["upnp"])
      + StoreMetric(s.proxyWol.enable as real, ServiceUp, ["remote_proxywol"])
      + StoreMetric(s.remoteAdmin.enable as real, ServiceUp, ["remote_admin"])
      + StoreMetric(s.parentalControl.enable as real, ServiceUp, ["parentalcontrol"])
      + StoreMetric(s.wifiScheduler.enable as real, ServiceUp, ["wifischeduler"])
      + StoreMetric(s.voipScheduler.enable as real, ServiceUp, ["voipscheduler"])
      + StoreMetric(s.notification.enable as real, ServiceUp, ["notification"])
      + StoreMetric(s.hotspot.enable as real, ServiceUp, ["hotspot"])
      + StoreMetric(s.usbSamba.enable as real, ServiceUp, ["usb_samba"])
      + StoreMetric(s.usbPrinter.enable as real, ServiceUp, ["usb_printer"])
      + StoreMetric(s.usbDlna.enable as real, ServiceUp, ["user_dlna"])
  }

  /** describeServicesMetrics: the one labelled descriptor of the group. */
  function DescribeServicesMetrics(): seq<Desc> {
    [ServiceUp]
  }

  /** No two service gauges share a name. */
  lemma ServiceLabelsDistinct()
    ensures |ServiceLabels| == 16
    ensures forall i, j :: 0 <= i < j < |ServiceLabels| ==> ServiceLabels[i] != ServiceLabels[j]
  {
  }

  /** Only the first record's `Enable` flags reach the output: statuses,
      rule counts and every other field are ignored. */
  lemma OnlyEnableFlagsMatter(m: ServicesMetrics, n: ServicesMetrics)
    requires |m.informations| > 0 && |n.informations| > 0
    requires EnableFlags(m.informations[0]) == EnableFlags(n.informations[0])
    ensures StoreServicesMetrics(m) == StoreServicesMetrics(n)
  {
  }
}

=== FILE: export_wan.dfy ===
/** The WAN projector (exporter/wan.go): the 14 IP traffic counters, the
    per-mode diagnostic response times, and the FTTH link state. */
module ExportWan {
  import opened Wrappers
  import opened BboxRecords
  import opened Samples

  /** The three link diagnostics, in the order they are exported. */
  datatype Mode = Dns | Ping | Http {
    function Label(): string {
      match this
      case Dns => "dns"
      case Ping => "ping"
      case Http => "http"
    }
  }

  const Modes: seq<Mode> := [Dns, Ping, Http]

  function Attempts(d: Diags, mode: Mode): seq<DiagAttempt> {
    match mode
    case Dns => d.dns
    case Ping => d.ping
    case Http => d.http
  }

  /** The position of the first attempt with a positive try count, or the
      number of attempts when there is none. */
  function FirstTried(attempts: seq<DiagAttempt>): (k: nat)
    ensures k <= |attempts|
    ensures forall i :: 0 <= i < k ==> attempts[i].tries <= 0
    ensures k < |attempts| ==> attempts[k].tries > 0
  {
    if |attempts| == 0 then 0
    else if attempts[0].tries > 0 then 0
    else 1 + FirstTried(attempts[1..])
  }

  predicate Tried(d: Diags, mode: Mode) {
    FirstTried(Attempts(d, mode)) < |Attempts(d, mode)|
  }

  /** The modes with a qualifying attempt, in export order. */
  function TriedModes(d: Diags): seq<Mode> {
    (if Tried(d, Dns) then [Dns] else []) +
    (if Tried(d, Ping) then [Ping] else []) +
    (if Tried(d, Http) then [Http] else [])
  }

  /** Minimum, maximum and average response time of one attempt, labelled
      with the mode. */
  function ProbeSamples(a: DiagAttempt, mode: Mode): (r: seq<Sample>)
    ensures |r| == 3
    ensures Descs(r) == [DiagnosticsMinWan, DiagnosticsMaxWan, DiagnosticsAvgWan]
    ensures Values(r) == [a.min as real, a.max as real, a.average as real]
    ensures forall i :: 0 <= i < |r| ==> r[i].labels == [mode.Label()]
  {
    StoreMetric(a.min as real, DiagnosticsMinWan, [mode.Label()]) +
    StoreMetric(a.max as real, DiagnosticsMaxWan, [mode.Label()]) +
    StoreMetric(a.average as real, DiagnosticsAvgWan, [mode.Label()])
  }

  const DiagnosticDescs: seq<Desc> := [DiagnosticsMinWan, DiagnosticsMaxWan, DiagnosticsAvgWan]

  /** One `range` loop of storeWanMetrics: the samples of the first attempt
      with a positive try count, then `break`; nothing when none qualifies. */
  function StoreProbe(attempts: seq<DiagAttempt>, mode: Mode): (r: seq<Sample>)
    ensures r == if FirstTried(attempts) < |attempts| then ProbeSamples(attempts[FirstTried(attempts)], mode) else []
  {
    if |attempts| == 0 then []
    else if attempts[0].tries > 0 then ProbeSamples(attempts[0], mode)
    else StoreProbe(attempts[1..], mode)
  }

  const TxWanDescs: seq<Desc> := [TxBytesWan, TxPacketsWan, TxPacketsErrorsWan, TxPacketsDiscardsWan,
                                  TxLineOccupationWan, TxBandwidthWan, TxBandwidthMaxWan]
  const RxWanDescs: seq<Desc> := [RxBytesWan, RxPacketsWan, RxPacketsErrorsWan, RxPacketsDiscardsWan,
                                  RxLineOccupationWan, RxBandwidthWan, RxBandwidthMaxWan]

  /** Every descriptor storeWanMetrics uses. */
  const WanStoredDescs: seq<Desc> := TxWanDescs + RxWanDescs + DiagnosticDescs

  /** The counters of one direction in export order. */
  function TrafficValues(t: WanTraffic): seq<real> {
    [t.bytes, t.packets, t.packetsErrors, t.packetsDiscards, t.occupation, t.bandwidth, t.maxBandwidth]
  }

  /** The 14 unlabelled counters: transmit first, then receive. */
  function StoreWanCounters(s: WanIPStatistics): (r: seq<Sample>)
    ensures Descs(r) == TxWanDescs + RxWanDescs
    ensures Values(r) == TrafficValues(s.tx) + TrafficValues(s.rx)
    ensures forall i :: 0 <= i < |r| ==> r[i].labels == []
    ensures |r| == 14 && forall i :: 0 <= i < |r| ==> r[i].desc in TxWanDescs + RxWanDescs
  {
    var tx := [
      Sample(TxBytesWan, [], s.tx.bytes), Sample(TxPacketsWan, [], s.tx.packets),
      Sample(TxPacketsErrorsWan, [], s.tx.packetsErrors), Sample(TxPacketsDiscardsWan, [], s.tx.packetsDiscards),
      Sample(TxLineOccupationWan, [], s.tx.occupation), Sample(TxBandwidthWan, [], s.tx.bandwidth),
      Sample(TxBandwidthMaxWan, [], s.tx.maxBandwidth)];
    var rx := [
      Sample(RxBytesWan, [], s.rx.bytes), Sample(RxPacketsWan, [], s.rx.packets),
      Sample(RxPacketsErrorsWan, [], s.rx.packetsErrors), Sample(RxPacketsDiscardsWan, [], s.rx.packetsDiscards),
      Sample(RxLineOccupationWan, [], s.rx.occupation), Sample(RxBandwidthWan, [], s.rx.bandwidth),
      Sample(RxBandwidthMaxWan, [], s.rx.maxBandwidth)];
    tx + rx
  }

  /** What storeWanMetrics indexes without a check: the first IP statistics
      record, the first diagnostics record, and its first ping attempt. */
  predicate WanProjectable(m: WanMetrics) {
    && |m.ipStatistics| > 0
    && |m.diagnosticsStatistics| > 0
    && |m.diagnosticsStatistics[0].diags.ping| > 0
  }

  /** storeWanMetrics: the counters of the first IP statistics record, then
      the DNS, ping and HTTP diagnostics of the first diagnostics record. */
  function StoreWanMetrics(m: WanMetrics): (r: seq<Sample>)
    requires WanProjectable(m)
    ensures |r| == 14 + 3 * |TriedModes(m.diagnosticsStatistics[0].diags)|
    ensures r[..14] == StoreWanCounters(m.ipStatistics[0])
    ensures r[14..] == StoreProbe(m.diagnosticsStatistics[0].diags.dns, Dns)
                       + StoreProbe(m.diagnosticsStatistics[0].diags.ping, Ping)
                       + StoreProbe(m.diagnosticsStatistics[0].diags.http, Http)
  {
    var d := m.diagnosticsStatistics[0].diags;
    var counters := StoreWanCounters(m.ipStatistics[0]);
    var dns := StoreProbe(d.dns, Dns);
    var ping := StoreProbe(d.ping, Ping);
    var http := StoreProbe(d.http, Http);
    ProbeCount(d);
    PrefixThrough(counters, dns, 14);
    PrefixThrough(counters + dns, ping, 14);
    PrefixThrough(counters + dns + ping, http, 14);
    SuffixAfter(counters, dns, ping, http);
    counters + dns + ping + http
  }

  /** The WAN samples use only the counter and the min/max/avg
      descriptors, the latter after the 14 counters, and each carries one
      value per variable label. */
  lemma WanSamplesShape(m: WanMetrics)
    requires WanProjectable(m)
    ensures Within(StoreWanMetrics(m), WanStoredDescs) && WellFormed(StoreWanMetrics(m))
    ensures forall i :: 14 <= i < |StoreWanMetrics(m)| ==> StoreWanMetrics(m)[i].desc in DiagnosticDescs
  {
    var d := m.diagnosticsStatistics[0].diags;
    CountersShape(m.ipStatistics[0]);
    ProbeShape(d.dns, Dns);
    ProbeShape(d.ping, Ping);
    ProbeShape(d.http, Http);
    ShapeOfParts(StoreWanCounters(m.ipStatistics[0]), StoreProbe(d.dns, Dns), StoreProbe(d.ping, Ping),
                 StoreProbe(d.http, Http));
  }

  lemma ShapeOfParts(counters: seq<Sample>, dns: seq<Sample>, ping: seq<Sample>, http: seq<Sample>)
    requires |counters| == 14
    requires Within(counters, WanStoredDescs) && WellFormed(counters)
    requires Within(dns, DiagnosticDescs) && Within(dns, WanStoredDescs) && WellFormed(dns)
    requires Within(ping, DiagnosticDescs) && Within(ping, WanStoredDescs) && WellFormed(ping)
    requires Within(http, DiagnosticDescs) && Within(http, WanStoredDescs) && WellFormed(http)
    ensures Within(counters + dns + ping + http, WanStoredDescs) && WellFormed(counters + dns + ping + http)
    ensures forall i :: 14 <= i < |counters + dns + ping + http| ==> (counters + dns + ping + http)[i].desc in DiagnosticDescs
  {
    WithinConcat(counters, dns, WanStoredDescs);
    WithinConcat(counters + dns, ping, WanStoredDescs);
    WithinConcat(counters + dns + ping, http, WanStoredDescs);
    WellFormedConcat(counters, dns);
    WellFormedConcat(counters + dns, ping);
    WellFormedConcat(counters + dns + ping, http);
    WithinConcat(dns, ping, DiagnosticDescs);
    WithinConcat(dns + ping, http, DiagnosticDescs);
    var all := counters + dns + ping + http;
    assert all == counters + (dns + ping + http);
    forall i | 14 <= i < |all|
      ensures all[i].desc in DiagnosticDescs
    {
      assert all[i] == (dns + ping + http)[i - 14];
    }
  }

  lemma CountersShape(s: WanIPStatistics)
    ensures Within(StoreWanCounters(s), WanStoredDescs) && WellFormed(StoreWanCounters(s))
  {
    var r := StoreWanCounters(s);
    CounterDescsUnlabelled();
    forall i | 0 <= i < |r|
      ensures r[i].desc in WanStoredDescs && |r[i].labels| == |r[i].desc.VariableLabels()|
    {
      var d := r[i].desc;
      assert d in TxWanDescs + RxWanDescs;
      assert d.VariableLabels() == [];
    }
  }

  lemma CounterDescsUnlabelled()
    ensures forall d :: d in TxWanDescs + RxWanDescs ==> d.VariableLabels() == [] && d in WanStoredDescs
  {
  }

  lemma DiagnosticDescsLabelled()
    ensures forall d :: d in DiagnosticDescs ==> |d.VariableLabels()| == 1 && d in WanStoredDescs
  {
  }

  /** Each tried mode contributes three samples, each untried one none. */
  lemma ProbeCount(d: Diags)
    ensures |StoreProbe(d.dns, Dns)| + |StoreProbe(d.ping, Ping)| + |StoreProbe(d.http, Http)| == 3 * |TriedModes(d)|
  {
    ProbeLength(d, Dns);
    ProbeLength(d, Ping);
    ProbeLength(d, Http);
    assert Attempts(d, Dns) == d.dns && Attempts(d, Ping) == d.ping && Attempts(d, Http) == d.http;
    TriedModesCount(d);
  }

  lemma TriedModesCount(d: Diags)
    ensures |TriedModes(d)| == (if Tried(d, Dns) then 1 else 0) + (if Tried(d, Ping) then 1 else 0)
                               + (if Tried(d, Http) then 1 else 0)
  {
  }

  lemma ProbeLength(d: Diags, mode: Mode)
    ensures |StoreProbe(Attempts(d, mode), mode)| == if Tried(d, mode) then 3 else 0
  {
  }

  lemma ProbeShape(attempts: seq<DiagAttempt>, mode: Mode)
    ensures |StoreProbe(attempts, mode)| == if FirstTried(attempts) < |attempts| then 3 else 0
    ensures Within(StoreProbe(attempts, mode), DiagnosticDescs)
    ensures Within(StoreProbe(attempts, mode), WanStoredDescs) && WellFormed(StoreProbe(attempts, mode))
    ensures forall i :: 0 <= i < |StoreProbe(attempts, mode)| ==> StoreProbe(attempts, mode)[i].labels == [mode.Label()]
  {
    var r := StoreProbe(attempts, mode);
    DiagnosticDescsLabelled();
    if FirstTried(attempts) < |attempts| {
      var p := ProbeSamples(attempts[FirstTried(attempts)], mode);
      assert r == p;
      forall i | 0 <= i < |r|
        ensures r[i].desc in DiagnosticDescs && r[i].desc in WanStoredDescs
        ensures |r[i].labels| == |r[i].desc.VariableLabels()|
      {
        assert r[i].desc == Descs(p)[i];
      }
    }
  }

  /** For each mode, the samples labelled with it are exactly the probe
      samples of that mode's first qualifying attempt, and there are none
      when no attempt qualifies. */
  lemma WanModeSamples(m: WanMetrics, mode: Mode)
    requires WanProjectable(m)
    ensures Labelled(StoreWanMetrics(m), [mode.Label()]) == StoreProbe(Attempts(m.diagnosticsStatistics[0].diags, mode), mode)
    ensures !Tried(m.diagnosticsStatistics[0].diags, mode) ==> Labelled(StoreWanMetrics(m), [mode.Label()]) == []
  {
    var d := m.diagnosticsStatistics[0].diags;
    var counters := StoreWanCounters(m.ipStatistics[0]);
    var dns, ping, http := StoreProbe(d.dns, Dns), StoreProbe(d.ping, Ping), StoreProbe(d.http, Http);
    assert StoreWanMetrics(m) == counters + dns + ping + http;
    ProbeShape(d.dns, Dns);
    ProbeShape(d.ping, Ping);
    ProbeShape(d.http, Http);
    ProbesAfterUnlabelled(counters, dns, ping, http, mode);
  }

  /** Selecting one mode's label from unlabelled counters followed by the
      three probes, each labelled with its own mode, yields that mode's
      probe. */
  lemma ProbesAfterUnlabelled(counters: seq<Sample>, dns: seq<Sample>, ping: seq<Sample>, http: seq<Sample>, mode: Mode)
    requires forall i :: 0 <= i < |counters| ==> counters[i].labels == []
    requires forall i :: 0 <= i < |dns| ==> dns[i].labels == [Dns.Label()]
    requires forall i :: 0 <= i < |ping| ==> ping[i].labels == [Ping.Label()]
    requires forall i :: 0 <= i < |http| ==> http[i].labels == [Http.Label()]
    ensures Labelled(counters + dns + ping + http, [mode.Label()]) == match mode
      case Dns => dns
      case Ping => ping
      case Http => http
  {
    var l := [mode.Label()];
    LabelledConcat(counters + dns + ping, http, l);
    LabelledConcat(counters + dns, ping, l);
    LabelledConcat(counters, dns, l);
    LabelledNone(counters, l);
    SelectProbe(dns, Dns, mode);
    SelectProbe(ping, Ping, mode);
    SelectProbe(http, Http, mode);
  }

  /** A probe labelled with `own` is selected whole by its own label and
      not at all by another mode's. */
  lemma SelectProbe(probe: seq<Sample>, own: Mode, mode: Mode)
    requires forall i :: 0 <= i < |probe| ==> probe[i].labels == [own.Label()]
    ensures Labelled(probe, [mode.Label()]) == if own == mode then probe else []
  {
    var l := [mode.Label()];
    if own == mode {
      LabelledAll(probe, l);
    } else {
      assert |l[0]| != |own.Label()| || l[0][0] != own.Label()[0];
      LabelledNone(probe, l);
    }
  }

  /** Once an attempt qualifies, the attempts after it do not affect the
      samples of that mode. */
  lemma LaterAttemptsIgnored(a: seq<DiagAttempt>, b: seq<DiagAttempt>, mode: Mode)
    requires FirstTried(a) < |a| && FirstTried(a) < |b|
    requires a[..FirstTried(a) + 1] == b[..FirstTried(a) + 1]
    ensures StoreProbe(a, mode) == StoreProbe(b, mode)
  {
    var k := FirstTried(a);
    assert forall i :: 0 <= i <= k ==> a[i] == a[..k + 1][i] == b[..k + 1][i] == b[i];
    FirstTriedUnique(b, k);
  }

  /** The first qualifying position is the one before which nothing
      qualifies. */
  lemma FirstTriedUnique(a: seq<DiagAttempt>, k: nat)
    requires k < |a| && a[k].tries > 0
    requires forall i :: 0 <= i < k ==> a[i].tries <= 0
    ensures FirstTried(a) == k
  {
  }

  /** Between 14 and 23 samples. */
  lemma WanSampleCount(m: WanMetrics)
    requires WanProjectable(m)
    ensures 14 <= |StoreWanMetrics(m)| <= 23
  {
  }

  /** Only the first IP statistics record and the first diagnostics record
      are read; the IP informations and FTTH statistics never matter. */
  lemma WanFirstRecordsOnly(m: WanMetrics, n: WanMetrics)
    requires WanProjectable(m) && WanProjectable(n)
    requires m.ipStatistics[0] == n.ipStatistics[0]
    requires m.diagnosticsStatistics[0] == n.diagnosticsStatistics[0]
    ensures StoreWanMetrics(m) == StoreWanMetrics(n)
  {
  }

  /** The success, error and tries descriptors are declared and described
      but never given a sample. */
  lemma WanNeverCountsOutcomes(m: WanMetrics)
    requires WanProjectable(m)
    ensures forall i :: 0 <= i < |StoreWanMetrics(m)| ==>
      StoreWanMetrics(m)[i].desc !in [DiagnosticsNumberOfSuccess, DiagnosticsNumberOfError, DiagnosticsNumberOfTries]
  {
    var r := StoreWanMetrics(m);
    WanSamplesShape(m);
    OutcomesNotStored();
    WithinExcludes(r, WanStoredDescs, DiagnosticsNumberOfSuccess);
    WithinExcludes(r, WanStoredDescs, DiagnosticsNumberOfError);
    WithinExcludes(r, WanStoredDescs, DiagnosticsNumberOfTries);
  }

  lemma OutcomesNotStored()
    ensures DiagnosticsNumberOfSuccess !in WanStoredDescs
    ensures DiagnosticsNumberOfError !in WanStoredDescs
    ensures DiagnosticsNumberOfTries !in WanStoredDescs
    ensures Up !in WanStoredDescs
  {
  }

  /** A zero-try DNS attempt is skipped and the next one is reported. */
  lemma DnsSkipsUntriedAttempt(s: WanIPStatistics, ping: seq<DiagAttempt>)
    requires |ping| > 0
    ensures var m := WanMetrics([], [s], None,
                                [WanDiagnostics(Diags([DiagAttempt(0, 0, 0, 0), DiagAttempt(3, 1, 5, 3)], ping, []))]);
      Labelled(StoreWanMetrics(m), ["dns"]) ==
        [Sample(DiagnosticsMinWan, ["dns"], 1.0), Sample(DiagnosticsMaxWan, ["dns"], 5.0),
         Sample(DiagnosticsAvgWan, ["dns"], 3.0)]
  {
    var m := WanMetrics([], [s], None,
                        [WanDiagnostics(Diags([DiagAttempt(0, 0, 0, 0), DiagAttempt(3, 1, 5, 3)], ping, []))]);
    WanModeSamples(m, Dns);
    SkipUntriedDns();
  }

  /** The DNS loop over a zero-try attempt followed by a tried one. */
  lemma SkipUntriedDns()
    ensures StoreProbe([DiagAttempt(0, 0, 0, 0), DiagAttempt(3, 1, 5, 3)], Dns) ==
      [Sample(DiagnosticsMinWan, ["dns"], 1.0), Sample(DiagnosticsMaxWan, ["dns"], 5.0),
       Sample(DiagnosticsAvgWan, ["dns"], 3.0)]
  {
    var a := [DiagAttempt(0, 0, 0, 0), DiagAttempt(3, 1, 5, 3)];
    assert StoreProbe(a, Dns) == StoreProbe(a[1..], Dns);
    assert StoreProbe(a[1..], Dns) == ProbeSamples(a[1], Dns);
  }

  /** describeWanMetrics: the FTTH state, the 14 counters, then the six
      diagnostics descriptors. */
  function DescribeWanMetrics(): seq<Desc> {
    [FtthState] + TxWanDescs + RxWanDescs + DiagnosticDescs
      + [DiagnosticsNumberOfSuccess, DiagnosticsNumberOfError, DiagnosticsNumberOfTries]
  }

  // ---- FTTH state ----

  /** strings.ToUpper on ASCII letters; other characters are unchanged. */
  function UpperChar(c: char): char {
    if 'a' <= c <= 'z' then (c as int - 32) as char else c
  }

  /** strings.ToUpper: no lower-case ASCII letter survives, each one becomes
      its capital, and every other character is kept in place. */
  function ToUpper(s: string): (r: string)
    ensures |r| == |s|
    ensures forall i :: 0 <= i < |r| ==> !('a' <= r[i] <= 'z')
    ensures forall i :: 0 <= i < |s| && 'a' <= s[i] <= 'z' ==> r[i] as int == s[i] as int - 32
    ensures forall i :: 0 <= i < |s| && !('a' <= s[i] <= 'z') ==> r[i] == s[i]
  {
    seq(|s|, i requires 0 <= i < |s| => UpperChar(s[i]))
  }

  /** Upper-casing twice is upper-casing once. */
  lemma ToUpperIdempotent(s: string)
    ensures ToUpper(ToUpper(s)) == ToUpper(s)
  {
  }

  /** The state reads "up" in any letter case. */
  predicate IsUp(state: string) {
    |state| == 2 && (state[0] == 'u' || state[0] == 'U') && (state[1] == 'p' || state[1] == 'P')
  }

  /** storeWanFtthMetric: one unlabelled sample, 1 when the upper-cased
      state is "UP" and 0 otherwise. */
  function StoreWanFtthMetric(state: string): (r: seq<Sample>)
    ensures |r| == 1 && r[0].desc == FtthState && r[0].labels == []
    ensures r[0].value == if IsUp(state) then 1.0 else 0.0
  {
    var upper := ToUpper(state);
    assert upper == "UP" <==> IsUp(state) by {
      if |state| == 2 {
        assert upper == "UP" <==> upper[0] == 'U' && upper[1] == 'P';
      }
    }
    StoreMetric(if upper == "UP" then 1.0 else 0.0, FtthState, [])
  }

  /** States that differ only in letter case give the same sample. */
  lemma FtthCaseInsensitive(s: string, t: string)
    requires ToUpper(s) == ToUpper(t)
    ensures StoreWanFtthMetric(s) == StoreWanFtthMetric(t)
  {
    if |s| == 2 {
      assert UpperChar(s[0]) == UpperChar(t[0]) && UpperChar(s[1]) == UpperChar(t[1]);
    }
  }

  lemma FtthUpAndDown()
    ensures StoreWanFtthMetric("Up")[0].value == 1.0
    ensures StoreWanFtthMetric("up")[0].value == 1.0
    ensures StoreWanFtthMetric("UP")[0].value == 1.0
    ensures StoreWanFtthMetric("Down")[0].value == 0.0
    ensures StoreWanFtthMetric("down")[0].value == 0.0
    ensures StoreWanFtthMetric("")[0].value == 0.0
  {
  }
}

=== FILE: exporter.dfy ===
/** The collector (exporter/exporter.go): what one scrape sends and what
    the exporter describes. */
module Exporter {
  import opened Wrappers
  import opened BboxRecords
  import opened BboxApi
  import opened BboxWan
  import opened BboxMetrics
  import opened Samples
  import opened ExportWan

  /** Describe: `up`, then the WAN descriptors; the other groups'
      descriptors are not announced. */
  function Describe(): seq<Desc> {
    [Up] + DescribeWanMetrics()
  }

  /** Collect, given what GetMetrics returned. On an error only `up = 0` is
      sent. On success the WAN samples come first, then the FTTH state, and
      `up = 1` last. The WAN record must hold what storeWanMetrics indexes. */
  function Collect(resp: Result<Metrics, Error>): (r: seq<Sample>)
    requires resp.Ok? ==> WanProjectable(resp.value.wan)
    ensures resp.Err? ==> r == [Sample(Up, [], 0.0)]
    ensures resp.Ok? ==> |r| >= 16 && r[|r| - 1] == Sample(Up, [], 1.0)
    ensures resp.Ok? ==> r[..|r| - 2] == StoreWanMetrics(resp.value.wan)
    ensures resp.Ok? ==>
      && r[|r| - 2].desc == FtthState && r[|r| - 2].labels == []
      && r[|r| - 2].value == if IsUp(resp.value.ftthState) then 1.0 else 0.0
  {
    if resp.Err? then StoreMetric(0.0, Up, [])
    else
      var wan := StoreWanMetrics(resp.value.wan);
      var tail := ScrapeTail(resp.value.ftthState);
      PrefixOfConcat(wan, tail);
      wan + tail
  }

  /** A successful scrape is the WAN samples followed by the FTTH state
      and `up`. */
  lemma CollectParts(resp: Result<Metrics, Error>)
    requires resp.Ok? && WanProjectable(resp.value.wan)
    ensures Collect(resp) == StoreWanMetrics(resp.value.wan) + ScrapeTail(resp.value.ftthState)
  {
  }

  /** The two samples a successful scrape sends after the WAN group. */
  function ScrapeTail(state: string): (r: seq<Sample>)
    ensures |r| == 2 && r[1] == Sample(Up, [], 1.0)
    ensures r[0].desc == FtthState && r[0].labels == [] && r[0].value == if IsUp(state) then 1.0 else 0.0
    ensures Occurrences(r, Up) == 1 && Within(r, [Up, FtthState]) && WellFormed(r)
  {
    var ftth := StoreWanFtthMetric(state);
    var up := StoreMetric(1.0, Up, []);
    OccurrencesConcat(ftth, up, Up);
    WellFormedConcat(ftth, up);
    assert ftth[1..] == [] && up[1..] == [];
    ftth + up
  }

  /** Every scrape sends exactly one `up` sample. */
  lemma CollectOneUp(resp: Result<Metrics, Error>)
    requires resp.Ok? ==> WanProjectable(resp.value.wan)
    ensures Occurrences(Collect(resp), Up) == 1
  {
    if resp.Ok? {
      CollectParts(resp);
      WanSamplesShape(resp.value.wan);
      OutcomesNotStored();
      OccurrencesAfter(StoreWanMetrics(resp.value.wan), ScrapeTail(resp.value.ftthState), WanStoredDescs, Up);
    }
  }

  /** Where the WAN descriptors and the scrape's own stand in Describe. */
  lemma DescribedFacts()
    ensures forall d :: d in [Up, FtthState] + WanStoredDescs ==> d in Describe()
  {
  }

  /** Every sample a scrape sends uses a described descriptor. */
  lemma CollectDescribed(resp: Result<Metrics, Error>)
    requires resp.Ok? ==> WanProjectable(resp.value.wan)
    ensures Within(Collect(resp), Describe())
  {
    DescribedFacts();
    if resp.Ok? {
      var wan := StoreWanMetrics(resp.value.wan);
      var tail := ScrapeTail(resp.value.ftthState);
      CollectParts(resp);
      WanSamplesShape(resp.value.wan);
      WithinWiden(wan, WanStoredDescs, Describe());
      WithinWiden(tail, [Up, FtthState], Describe());
      WithinConcat(wan, tail, Describe());
    }
  }

  /** Every sample a scrape sends carries one value per variable label, so
      none of its MustNewConstMetric calls panics. */
  lemma CollectWellFormed(resp: Result<Metrics, Error>)
    requires resp.Ok? ==> WanProjectable(resp.value.wan)
    ensures WellFormed(Collect(resp))
  {
    if resp.Ok? {
      CollectParts(resp);
      WanSamplesShape(resp.value.wan);
      WellFormedConcat(StoreWanMetrics(resp.value.wan), ScrapeTail(resp.value.ftthState));
    }
  }

  /** `up` comes first and no descriptor is announced twice. */
  lemma DescribeDistinct()
    ensures |Describe()| == 22 && Describe()[0] == Up
    ensures forall i, j :: 0 <= i < j < |Describe()| ==> Describe()[i] != Describe()[j]
  {
  }

  /** GetMetrics never fills the diagnostics of the WAN group, so no
      successful collection meets storeWanMetrics' indexing requirement:
      Collect would index an empty sequence on every successful scrape. */
  lemma FetchedWanNotProjectable(c: Client, server: Server)
    ensures GetMetrics(c, server).result.Ok? ==> !WanProjectable(GetMetrics(c, server).result.value.wan)
  {
  }

  /** A successful collection leaves the FTTH state empty, so the FTTH
      sample it would feed is always 0. */
  lemma FetchedFtthIsZero(c: Client, server: Server)
    ensures GetMetrics(c, server).result.Ok? ==>
      StoreWanFtthMetric(GetMetrics(c, server).result.value.ftthState)[0].value == 0.0
  {
  }
}

=== FILE: lan.dfy ===
/** The LAN group fetcher (bbox/lan.go): statistics, then hosts. The LAN IP
    fetcher exists but the group never calls it. */
module BboxLan {
  import opened Wrappers
  import opened BboxRecords
  import opened BboxApi

  const LanIPPath: string := "/lan/ip"
  const HostsPath: string := "/hosts"
  const LanStatsPath: string := "/lan/stats"

  function LanPlan(c: Client): seq<string> {
    [Url(c, LanStatsPath), Url(c, HostsPath)]
  }

  function AsLanIPInformations(doc: Payload): Option<seq<LanIPInformations>> {
    if doc.LanIPInformationsDoc? then Some(doc.lanIPInformations) else None
  }

  function AsLanDevices(doc: Payload): Option<seq<LanDevice>> {
    if doc.LanDevicesDoc? then Some(doc.lanDevices) else None
  }

  function AsLanStatistics(doc: Payload): Option<seq<LanStatistics>> {
    if doc.LanStatisticsDoc? then Some(doc.lanStatistics) else None
  }

  /** getLanInformations: one request to /lan/ip. */
  function GetLanInformations(c: Client, server: Server): (r: Fetch<seq<LanIPInformations>>)
    ensures r.trace == [Url(c, LanIPPath)]
    ensures PassesErrors(r.result, server(Url(c, LanIPPath)))
    ensures forall xs :: r.result == Ok(xs) <==>
      server(Url(c, LanIPPath)) == Delivered(Json(LanIPInformationsDoc(xs)))
  {
    PrefixedPatternFormsUrl(LanIPPath, c.url);
    ApiRequest(c, server, "%s" + LanIPPath, AsLanIPInformations)
  }

  /** getLanDevices: one request to /hosts. */
  function GetLanDevices(c: Client, server: Server): (r: Fetch<seq<LanDevice>>)
    ensures r.trace == [Url(c, HostsPath)]
    ensures PassesErrors(r.result, server(Url(c, HostsPath)))
    ensures forall xs :: r.result == Ok(xs) <==>
      server(Url(c, HostsPath)) == Delivered(Json(LanDevicesDoc(xs)))
  {
    PrefixedPatternFormsUrl(HostsPath, c.url);
    ApiRequest(c, server, "%s" + HostsPath, AsLanDevices)
  }

  /** getLanStatistics: one request to /lan/stats. */
  function GetLanStatistics(c: Client, server: Server): (r: Fetch<seq<LanStatistics>>)
    ensures r.trace == [Url(c, LanStatsPath)]
    ensures PassesErrors(r.result, server(Url(c, LanStatsPath)))
    ensures forall xs :: r.result == Ok(xs) <==>
      server(Url(c, LanStatsPath)) == Delivered(Json(LanStatisticsDoc(xs)))
  {
    PrefixedPatternFormsUrl(LanStatsPath, c.url);
    ApiRequest(c, server, "%s" + LanStatsPath, AsLanStatistics)
  }

  function LanSteps(c: Client, server: Server): seq<Step> {
    [Summary(GetLanStatistics(c, server)), Summary(GetLanDevices(c, server))]
  }

  /** getLanMetrics: statistics then hosts, fail-fast; on success the IP
      information stays empty. */
  function GetLanMetrics(c: Client, server: Server): (r: Fetch<LanMetrics>)
    ensures FailFast(r, LanSteps(c, server))
    ensures r.result.Ok? ==>
      && server(Url(c, LanStatsPath)) == Delivered(Json(LanStatisticsDoc(r.result.value.statistics)))
      && server(Url(c, HostsPath)) == Delivered(Json(LanDevicesDoc(r.result.value.devices)))
      && r.result.value.ipInformations == []
  {
    var stats := GetLanStatistics(c, server);
    TracesSnoc(LanSteps(c, server), 0);
    TracesSnoc(LanSteps(c, server), 1);
    if stats.result.Err? then Fetch(Err(stats.result.error), stats.trace)
    else
      var devices := GetLanDevices(c, server);
      var trace := stats.trace + devices.trace;
      if devices.result.Err? then Fetch(Err(devices.result.error), trace)
      else Fetch(Ok(LanMetrics([], devices.result.value, stats.result.value)), trace)
  }

  /** The LAN group requests /lan/stats first and /hosts only after it
      succeeded; /lan/ip is never requested. */
  lemma LanFollowsPlan(c: Client, server: Server)
    ensures GetLanMetrics(c, server).trace <= LanPlan(c)
    ensures GetLanMetrics(c, server).result.Ok? ==> GetLanMetrics(c, server).trace == LanPlan(c)
    ensures GetLanStatistics(c, server).result.Err? ==> GetLanMetrics(c, server).trace == [Url(c, LanStatsPath)]
    ensures Url(c, LanIPPath) !in GetLanMetrics(c, server).trace
  {
    var plans := [[Url(c, LanStatsPath)], [Url(c, HostsPath)]];
    FailFastFollowsPlan(GetLanMetrics(c, server), LanSteps(c, server), plans);
    FlattenSingletons(plans, LanPlan(c));
  }
}

=== FILE: metrics.dfy ===
/** GetMetrics (bbox/client.go): the five group fetchers in the fixed order
    device, WAN, LAN, DNS, services, stopping at the first failing group. */
module BboxMetrics {
  import opened Wrappers
  import opened BboxRecords
  import opened BboxApi
  import opened BboxDevice
  import opened BboxWan
  import opened BboxLan
  import opened BboxDns
  import opened BboxServices
  import opened BboxWireless

  const IptvPath: string := "/iptv"

  /** The five group runs, as nested one-step extensions. */
  function GroupSteps(c: Client, server: Server): seq<Step> {
    [Summary(GetDeviceMetrics(c, server))] +
    ([Summary(GetWanMetrics(c, server))] +
     ([Summary(GetLanMetrics(c, server))] +
      ([Summary(GetDnsMetrics(c, server))] + [Summary(GetServicesMetrics(c, server))])))
  }

  /** Every URL a successful collection requests, in request order. */
  function FullPlan(c: Client): seq<string> {
    DevicePlan(c) + (WanPlan(c) + (LanPlan(c) + (DnsPlan(c) + ServicesPlan(c))))
  }

  /** GetMetrics: the groups run fail-fast in the order device, WAN, LAN,
      DNS, services; the first failing group's error is the result, and on
      success each field is its fetcher's result while the FTTH state is
      never assigned. */
  function GetMetrics(c: Client, server: Server): (r: Fetch<Metrics>)
    ensures FailFast(r, GroupSteps(c, server))
    ensures r.result.Ok? ==>
      && GetDeviceMetrics(c, server).result == Ok(r.result.value.device)
      && GetWanMetrics(c, server).result == Ok(r.result.value.wan)
      && GetLanMetrics(c, server).result == Ok(r.result.value.lan)
      && GetDnsMetrics(c, server).result == Ok(r.result.value.dns)
      && GetServicesMetrics(c, server).result == Ok(r.result.value.services)
      && r.result.value.ftthState == ""
  {
    var device := GetDeviceMetrics(c, server);
    var wan := GetWanMetrics(c, server);
    var lan := GetLanMetrics(c, server);
    var dns := GetDnsMetrics(c, server);
    var services := GetServicesMetrics(c, server);
    var run := Then(device, Then(wan, Then(lan, Then(dns, services))));
    var tail3 := [Summary(dns)] + [Summary(services)];
    var tail2 := [Summary(lan)] + tail3;
    var tail1 := [Summary(wan)] + tail2;
    FailFastOne(services);
    ThenFailFast(dns, services, [Summary(services)]);
    ThenFailFast(lan, Then(dns, services), tail3);
    ThenFailFast(wan, Then(lan, Then(dns, services)), tail2);
    ThenFailFast(device, Then(wan, Then(lan, Then(dns, services))), tail1);
    var r := if run.result.Err? then Fetch(Err(run.result.error), run.trace)
             else
               var (d, (w, (l, (n, s)))) := run.result.value;
               Fetch(Ok(Metrics(d, w, l, n, s, "")), run.trace);
    FailFastMap(run, r, GroupSteps(c, server));
    r
  }

  /** A collection requests a prefix of the fixed URL order, and all of it
      when it succeeds. */
  lemma GetMetricsFollowsPlan(c: Client, server: Server)
    ensures GetMetrics(c, server).trace <= FullPlan(c)
    ensures GetMetrics(c, server).result.Ok? ==> GetMetrics(c, server).trace == FullPlan(c)
  {
    var device := GetDeviceMetrics(c, server);
    var wan := GetWanMetrics(c, server);
    var lan := GetLanMetrics(c, server);
    var dns := GetDnsMetrics(c, server);
    var services := GetServicesMetrics(c, server);
    DeviceFollowsPlan(c, server);
    WanFollowsPlan(c, server);
    LanFollowsPlan(c, server);
    ThenFollowsPlan(dns, services, DnsPlan(c), ServicesPlan(c));
    ThenFollowsPlan(lan, Then(dns, services), LanPlan(c), DnsPlan(c) + ServicesPlan(c));
    ThenFollowsPlan(wan, Then(lan, Then(dns, services)), WanPlan(c),
                    LanPlan(c) + (DnsPlan(c) + ServicesPlan(c)));
    ThenFollowsPlan(device, Then(wan, Then(lan, Then(dns, services))), DevicePlan(c),
                    WanPlan(c) + (LanPlan(c) + (DnsPlan(c) + ServicesPlan(c))));
  }

  /** A resource path whose second or third character differs from the
      Wi-Fi statistics path's, and whose second differs from the IPTV
      path's, is neither of those requests. */
  lemma NotWirelessNorIptv(c: Client, p: string, which: string)
    requires |p| >= 3 && (p[1] != 'w' || p[2] != 'i') && p[1] != 'i'
    ensures Url(c, p) != Url(c, WirelessPath(which)) && Url(c, p) != Url(c, IptvPath)
  {
    var n := |c.url|;
    assert Url(c, p)[n + 1] == p[1] && Url(c, p)[n + 2] == p[2];
    assert Url(c, WirelessPath(which))[n + 1] == 'w' && Url(c, WirelessPath(which))[n + 2] == 'i';
    assert Url(c, IptvPath)[n + 1] == 'i';
  }

  /** Neither Wi-Fi statistics nor IPTV is part of the collection plan. */
  lemma PlanOmitsWirelessAndIptv(c: Client, which: string)
    ensures Url(c, WirelessPath(which)) !in FullPlan(c)
    ensures Url(c, IptvPath) !in FullPlan(c)
  {
    NotWirelessNorIptv(c, DevicePath, which);
    NotWirelessNorIptv(c, CpuPath, which);
    NotWirelessNorIptv(c, MemoryPath, which);
    NotWirelessNorIptv(c, WanIPPath, which);
    NotWirelessNorIptv(c, WanStatsPath, which);
    NotWirelessNorIptv(c, FtthStatsPath, which);
    NotWirelessNorIptv(c, LanStatsPath, which);
    NotWirelessNorIptv(c, HostsPath, which);
    NotWirelessNorIptv(c, DnsStatsPath, which);
    NotWirelessNorIptv(c, ServicesPath, which);
  }

  lemma NotInPrefix(x: string, trace: seq<string>, plan: seq<string>)
    requires trace <= plan && x !in plan
    ensures x !in trace
  {
    assert trace == plan[..|trace|];
  }

  /** GetMetrics never requests Wi-Fi statistics of any band, nor the IPTV
      resource. */
  lemma NoWirelessNorIptvRequest(c: Client, server: Server, which: string)
    ensures Url(c, WirelessPath(which)) !in GetMetrics(c, server).trace
    ensures Url(c, IptvPath) !in GetMetrics(c, server).trace
  {
    GetMetricsFollowsPlan(c, server);
    PlanOmitsWirelessAndIptv(c, which);
    NotInPrefix(Url(c, WirelessPath(which)), GetMetrics(c, server).trace, FullPlan(c));
    NotInPrefix(Url(c, IptvPath), GetMetrics(c, server).trace, FullPlan(c));
  }
}

=== FILE: records.dfy ===
/** Typed shapes of the router API's JSON documents and of the group records
    the fetchers assemble from them (package `bbox`).

    The API wraps every resource in a JSON array, so each group record holds
    sequences. Nested JSON objects that only group fields are flattened; the
    fields kept are those the exporter reads plus enough of the others to
    state that the exporter ignores them. Go `float64` fields are `real`,
    Go `int` fields are `int`. */
module BboxRecords {
  import opened Wrappers

  // ---- bbox/device.go ----

  datatype Temperature = Temperature(current: real, status: string)

  datatype LinkUsage = LinkUsage(ipv4: int, ipv6: int, ftth: int, adsl: int, vdsl: int)

  /** One element of the `/device` document. */
  datatype DeviceInformations = DeviceInformations(
    now: string,
    status: real,
    numberOfBoots: real,
    modelName: string,
    temperature: Temperature,
    using: LinkUsage)

  /** One element of the `/device/mem` document. */
  datatype DeviceMemory = DeviceMemory(total: real, free: real, cached: real)

  datatype CpuTime = CpuTime(
    total: real, user: real, nice: real, system: real, io: real, idle: real, irq: real)

  datatype ProcessCounts = ProcessCounts(created: real, running: real, blocked: real)

  /** One element of the `/device/cpu` document. */
  datatype DeviceCPU = DeviceCPU(time: CpuTime, process: ProcessCounts)

  datatype DeviceMetrics = DeviceMetrics(
    informations: seq<DeviceInformations>,
    memory: seq<DeviceMemory>,
    cpu: seq<DeviceCPU>)

  // ---- bbox/wan.go ----

  /** One direction of the WAN IP counters. `bytes` is declared as a string
      in the Go record but converted as a number where it is exported, so it
      is a number here. */
  datatype WanTraffic = WanTraffic(
    packets: real,
    bytes: real,
    packetsErrors: real,
    packetsDiscards: real,
    occupation: real,
    bandwidth: real,
    maxBandwidth: real)

  /** One element of the `/wan/ip/stats` document. */
  datatype WanIPStatistics = WanIPStatistics(rx: WanTraffic, tx: WanTraffic)

  /** One element of the `/wan/ftth/stats` document. */
  datatype Ftth = Ftth(mode: string, state: string)

  datatype WanInterface = WanInterface(id: int, isDefault: int, state: int)

  datatype WanIP = WanIP(
    address: string,
    state: string,
    gateway: string,
    dnsServers: string,
    subnet: string,
    ip6State: string,
    mac: string,
    mtu: int)

  datatype WanLink = WanLink(state: string, linkType: string)

  /** One element of the `/wan/ip` document. */
  datatype WanIPInformations = WanIPInformations(
    internetState: int, iface: WanInterface, ip: WanIP, link: WanLink)

  /** One probe attempt of a link diagnostic (DNS, ping or HTTP). */
  datatype DiagAttempt = DiagAttempt(tries: int, min: int, max: int, average: int)

  datatype Diags = Diags(dns: seq<DiagAttempt>, ping: seq<DiagAttempt>, http: seq<DiagAttempt>)

  /** One element of the diagnostics document the WAN exporter reads. */
  datatype WanDiagnostics = WanDiagnostics(diags: Diags)

  /** The WAN group. `ftthStatistics` is a Go pointer, nil until the FTTH
      request succeeds. */
  datatype WanMetrics = WanMetrics(
    ipInformations: seq<WanIPInformations>,
    ipStatistics: seq<WanIPStatistics>,
    ftthStatistics: Option<seq<Ftth>>,
    diagnosticsStatistics: seq<WanDiagnostics>)

  // ---- bbox/lan.go, bbox/wireless.go ----

  /** One direction of the packet counters of the LAN and Wi-Fi documents. */
  datatype LinkCounters = LinkCounters(
    packets: real, bytes: real, packetsErrors: real, packetsDiscards: real)

  /** One element of the `/lan/stats` document. */
  datatype LanStatistics = LanStatistics(rx: LinkCounters, tx: LinkCounters)

  datatype LanHost = LanHost(
    id: int,
    hostname: string,
    macAddress: string,
    ipAddress: string,
    hostType: string,
    link: string,
    deviceType: string,
    firstSeen: string,
    active: int)

  /** One element of the `/hosts` document. */
  datatype LanDevice = LanDevice(hosts: seq<LanHost>)

  datatype SwitchPort = SwitchPort(
    id: int, state: string, linkMode: string, blocked: int, flickering: int)

  /** One element of the `/lan/ip` document. */
  datatype LanIPInformations = LanIPInformations(
    state: string,
    mtu: int,
    ipAddress: string,
    ip6Enable: int,
    ip6State: string,
    netmask: string,
    mac: string,
    hostname: string,
    domain: string,
    aliases: string,
    ports: seq<SwitchPort>)

  datatype LanMetrics = LanMetrics(
    ipInformations: seq<LanIPInformations>,
    devices: seq<LanDevice>,
    statistics: seq<LanStatistics>)

  /** One element of the `/wireless/<band>/stats` document. */
  datatype WirelessStatistics = WirelessStatistics(rx: LinkCounters, tx: LinkCounters)

  datatype WirelessMetrics = WirelessMetrics(
    wireless5GhzStatistics: seq<WirelessStatistics>,
    wireless24GhzStatistics: seq<WirelessStatistics>)

  // ---- bbox/service.go ----

  /** Firewall, DHCP, NAT and UPnP IGD. */
  datatype RuleService = RuleService(status: int, enable: int, nbRules: int)

  datatype DynDns = DynDns(state: int, enable: int, nbRules: int)

  /** Gamer mode, hotspot and the USB services. */
  datatype Toggle = Toggle(status: int, enable: int)

  /** Parental control, Wi-Fi and VoIP schedulers, notification. */
  datatype Switch = Switch(enable: int)

  datatype ProxyWol = ProxyWol(status: int, enable: int, ip: string)

  datatype RemoteAdmin = RemoteAdmin(
    status: int,
    enable: int,
    port: int,
    ip: string,
    duration: string,
    activable: int,
    ip6Address: string)

  /** One element of the `/services` document. */
  datatype ServicesInformations = ServicesInformations(
    now: string,
    firewall: RuleService,
    dynDns: DynDns,
    dhcp: RuleService,
    natService: RuleService,
    gamerMode: Toggle,
    upnpIgd: RuleService,
    proxyWol: ProxyWol,
    remoteAdmin: RemoteAdmin,
    parentalControl: Switch,
    wifiScheduler: Switch,
    voipScheduler: Switch,
    notification: Switch,
    hotspot: Toggle,
    usbSamba: Toggle,
    usbPrinter: Toggle,
    usbDlna: Toggle)

  datatype ServicesMetrics = ServicesMetrics(informations: seq<ServicesInformations>)

  // ---- bbox/dns.go ----

  /** One element of the `/dns/stats` document. */
  datatype DnsAverage = DnsAverage(numberOfQueries: real, min: real, max: real, average: real)

  datatype DnsMetrics = DnsMetrics(principal: seq<DnsAverage>)

  // ---- bbox/client.go ----

  /** Everything one collection gathers. */
  datatype Metrics = Metrics(
    device: DeviceMetrics,
    wan: WanMetrics,
    lan: LanMetrics,
    dns: DnsMetrics,
    services: ServicesMetrics,
    ftthState: string)
}

=== FILE: samples.dfy ===
/** Metric descriptors and samples of the exporter (package `exporter`).

    A descriptor stands for one package-level `prometheus.Desc`: its fully
    qualified name and its variable label names. A sample is one constant
    gauge sent on the collection channel; a projector's output is the
    sequence of samples in the order it sends them. */
module Samples {
  import opened Wrappers

  const Namespace: string := "bbox"

  datatype Desc =
    | Up
    // exporter/wan.go
    | FtthState
    | TxBytesWan | TxPacketsWan | TxPacketsErrorsWan | TxPacketsDiscardsWan
    | TxLineOccupationWan | TxBandwidthWan | TxBandwidthMaxWan
    | RxBytesWan | RxPacketsWan | RxPacketsErrorsWan | RxPacketsDiscardsWan
    | RxLineOccupationWan | RxBandwidthWan | RxBandwidthMaxWan
    | DiagnosticsMinWan | DiagnosticsMaxWan | DiagnosticsAvgWan
    | DiagnosticsNumberOfSuccess | DiagnosticsNumberOfError | DiagnosticsNumberOfTries
    // exporter/device.go
    | DeviceStatus | DeviceNumberOfBoots | DeviceTemperature
    | DeviceMemoryTotal | DeviceMemoryFree | DeviceMemoryCached
    | DeviceCpuTotal | DeviceCpuUser | DeviceCpuNice | DeviceCpuSystem
    | DeviceCpuIO | DeviceCpuIdle | DeviceCpuIrq
    | DeviceProcessCreated | DeviceProcessRunning | DeviceProcessBlocked
    // exporter/service.go
    | ServiceUp
    // exporter/lan.go
    | TxBytesLan | TxPacketsLan | TxPacketsErrorsLan | TxPacketsDiscardsLan
    | RxBytesLan | RxPacketsLan | RxPacketsErrorsLan | RxPacketsDiscardsLan
    // exporter/wireless.go
    | TxBytesWireless | TxPacketsWireless | TxPacketsErrorsWireless | TxPacketsDiscardsWireless
    | RxBytesWireless | RxPacketsWireless | RxPacketsErrorsWireless | RxPacketsDiscardsWireless
    /** Listed by describeWirelessMetrics but declared elsewhere. */
    | Hosts
    // exporter/dns.go
    | DnsNumberOfQueries | DnsMin | DnsMax | DnsAverage
  {
    /** The name after the `bbox_` prefix; none for `Hosts`, whose
        declaration is not part of this model. */
    function Suffix(): Option<string> {
      match this
      case Up => Some("up")
      case FtthState => Some("wan_ftth_state")
      case TxBytesWan => Some("wan_transmitted_bytes")
      case TxPacketsWan => Some("wan_transmitted_packets")
      case TxPacketsErrorsWan => Some("wan_transmitted_packets_errors")
      case TxPacketsDiscardsWan => Some("wan_transmitted_packets_discards")
      case TxLineOccupationWan => Some("wan_transmitted_line_occupation")
      case TxBandwidthWan => Some("wan_transmitted_bandwidth")
      case TxBandwidthMaxWan => Some("wan_transmitted_bandwidth_max")
      case RxBytesWan => Some("wan_received_bytes")
      case RxPacketsWan => Some("wan_received_packets")
      case RxPacketsErrorsWan => Some("wan_received_packets_errors")
      case RxPacketsDiscardsWan => Some("wan_received_packets_discards")
      case RxLineOccupationWan => Some("wan_received_line_occupation")
      case RxBandwidthWan => Some("wan_received_bandwidth")
      case RxBandwidthMaxWan => Some("wan_received_bandwidth_max")
      case DiagnosticsMinWan => Some("wan_diagnostics_min")
      case DiagnosticsMaxWan => Some("wan_diagnostics_max")
      case DiagnosticsAvgWan => Some("wan_diagnostics_avg")
      case DiagnosticsNumberOfSuccess => Some("wan_diagnostics_success")
      case DiagnosticsNumberOfError => Some("wan_diagnostics_error")
      case DiagnosticsNumberOfTries => Some("wan_diagnostics_tries")
      case DeviceStatus => Some("device_status")
      case DeviceNumberOfBoots => Some("device_number_of_boots")
      case DeviceTemperature => Some("device_temperature")
      case DeviceMemoryTotal => Some("device_memory_total")
      case DeviceMemoryFree => Some("device_memory_free")
      case DeviceMemoryCached => Some("device_memory_cached")
      case DeviceCpuTotal => Some("device_cpu_total")
      case DeviceCpuUser => Some("device_cpu_user")
      case DeviceCpuNice => Some("device_cpu_nice")
      case DeviceCpuSystem => Some("device_cpu_system")
      case DeviceCpuIO => Some("device_cpu_io")
      case DeviceCpuIdle => Some("device_cpu_idle")
      case DeviceCpuIrq => Some("device_cpu_irq")
      case DeviceProcessCreated => Some("device_process_created")
      case DeviceProcessRunning => Some("device_process_running")
      case DeviceProcessBlocked => Some("device_process_blocked")
      case ServiceUp => Some("service_status")
      case TxBytesLan => Some("lan_transmitted_bytes")
      case TxPacketsLan => Some("lan_transmitted_packets")
      case TxPacketsErrorsLan => Some("lan_transmitted_packets_errors")
      case TxPacketsDiscardsLan => Some("lan_transmitted_packets_discards")
      case RxBytesLan => Some("lan_received_bytes")
      case RxPacketsLan => Some("lan_received_packets")
      case RxPacketsErrorsLan => Some("lan_received_packets_errors")
      case RxPacketsDiscardsLan => Some("lan_received_packets_discards")
      case TxBytesWireless => Some("wireless_transmitted_bytes")
      case TxPacketsWireless => Some("wireless_transmitted_packets")
      case TxPacketsErrorsWireless => Some("wireless_transmitted_packets_errors")
      case TxPacketsDiscardsWireless => Some("wireless_transmitted_packets_discards")
      case RxBytesWireless => Some("wireless_received_bytes")
      case RxPacketsWireless => Some("wireless_received_packets")
      case RxPacketsErrorsWireless => Some("wireless_received_packets_errors")
      case RxPacketsDiscardsWireless => Some("wireless_received_packets_discards")
      case Hosts => None
      case DnsNumberOfQueries => Some("dns_number_of_queries")
      case DnsMin => Some("dns_min")
      case DnsMax => Some("dns_max")
      case DnsAverage => Some("dns_average")
    }

    /** BuildFQName(namespace, "", suffix). */
    function FqName(): Option<string> {
      if Suffix().Some? then Some(Namespace + "_" + Suffix().value) else None
    }

    /** The variable label names the descriptor was declared with. */
    function VariableLabels(): seq<string> {
      if || DiagnosticsMinWan? || DiagnosticsMaxWan? || DiagnosticsAvgWan?
         || DiagnosticsNumberOfSuccess? || DiagnosticsNumberOfError? || DiagnosticsNumberOfTries?
      then ["mode"]
      else if ServiceUp? then ["name"]
      else if || TxBytesWireless? || TxPacketsWireless? || TxPacketsErrorsWireless? || TxPacketsDiscardsWireless?
              || RxBytesWireless? || RxPacketsWireless? || RxPacketsErrorsWireless? || RxPacketsDiscardsWireless?
      then ["frequency"]
      else []
    }
  }

  /** One constant gauge: its descriptor, its label values, its value. */
  datatype Sample = Sample(desc: Desc, labels: seq<string>, value: real)

  /** storeMetric: one gauge with the given value and label values.
      `MustNewConstMetric` panics unless there is one value per variable
      label, so that is the caller's obligation. */
  function StoreMetric(value: real, desc: Desc, labels: seq<string>): (r: seq<Sample>)
    requires |labels| == |desc.VariableLabels()|
    ensures |r| == 1 && r[0].desc == desc && r[0].labels == labels && r[0].value == value
    ensures WellFormed(r)
  {
    [Sample(desc, labels, value)]
  }

  /** Every sample carries one value per variable label of its descriptor. */
  predicate WellFormed(samples: seq<Sample>) {
    forall i :: 0 <= i < |samples| ==> |samples[i].labels| == |samples[i].desc.VariableLabels()|
  }

  /** Every sample uses one of `descs`. */
  predicate Within(samples: seq<Sample>, descs: seq<Desc>) {
    forall i :: 0 <= i < |samples| ==> samples[i].desc in descs
  }

  lemma WithinConcat(a: seq<Sample>, b: seq<Sample>, descs: seq<Desc>)
    requires Within(a, descs) && Within(b, descs)
    ensures Within(a + b, descs)
  {
    assert forall i :: 0 <= i < |a + b| ==> (a + b)[i] == if i < |a| then a[i] else b[i - |a|];
  }

  lemma PrefixOfConcat(a: seq<Sample>, b: seq<Sample>)
    ensures (a + b)[..|a|] == a && |a + b| == |a| + |b|
  {
  }

  lemma SuffixAfter(a: seq<Sample>, b: seq<Sample>, c: seq<Sample>, d: seq<Sample>)
    ensures (a + b + c + d)[|a|..] == b + c + d
  {
    assert a + b + c + d == a + (b + c + d);
  }

  lemma PrefixThrough(a: seq<Sample>, b: seq<Sample>, n: nat)
    requires n <= |a|
    ensures (a + b)[..n] == a[..n] && |a + b| == |a| + |b|
  {
  }

  lemma WithinWiden(samples: seq<Sample>, descs: seq<Desc>, wider: seq<Desc>)
    requires Within(samples, descs)
    requires forall d :: d in descs ==> d in wider
    ensures Within(samples, wider)
  {
  }

  /** Prefixing samples confined to descriptors other than `d` does not
      change how often `d` occurs. */
  lemma OccurrencesAfter(a: seq<Sample>, b: seq<Sample>, narrow: seq<Desc>, d: Desc)
    requires Within(a, narrow) && d !in narrow
    ensures Occurrences(a + b, d) == Occurrences(b, d)
  {
    WithinExcludes(a, narrow, d);
    OccurrencesAbsent(a, d);
    OccurrencesConcat(a, b, d);
  }

  /** A descriptor outside `descs` is used by no sample. */
  lemma WithinExcludes(samples: seq<Sample>, descs: seq<Desc>, d: Desc)
    requires Within(samples, descs) && d !in descs
    ensures forall i :: 0 <= i < |samples| ==> samples[i].desc != d
  {
  }

  function Descs(samples: seq<Sample>): seq<Desc> {
    seq(|samples|, i requires 0 <= i < |samples| => samples[i].desc)
  }

  function Values(samples: seq<Sample>): seq<real> {
    seq(|samples|, i requires 0 <= i < |samples| => samples[i].value)
  }

  /** The samples whose label values are exactly `labels`, in order. */
  function Labelled(samples: seq<Sample>, labels: seq<string>): seq<Sample> {
    if |samples| == 0 then []
    else (if samples[0].labels == labels then [samples[0]] else []) + Labelled(samples[1..], labels)
  }

  /** How many samples have descriptor `d`. */
  function Occurrences(samples: seq<Sample>, d: Desc): nat {
    if |samples| == 0 then 0
    else (if samples[0].desc == d then 1 else 0) + Occurrences(samples[1..], d)
  }

  lemma {:induction false} LabelledConcat(a: seq<Sample>, b: seq<Sample>, labels: seq<string>)
    ensures Labelled(a + b, labels) == Labelled(a, labels) + Labelled(b, labels)
  {
    if |a| > 0 {
      assert (a + b)[1..] == a[1..] + b;
      LabelledConcat(a[1..], b, labels);
    } else {
      assert a + b == b;
    }
  }

  /** No sample carries `labels`: none are selected. */
  lemma {:induction false} LabelledNone(samples: seq<Sample>, labels: seq<string>)
    requires forall i :: 0 <= i < |samples| ==> samples[i].labels != labels
    ensures Labelled(samples, labels) == []
  {
    if |samples| > 0 {
      LabelledNone(samples[1..], labels);
    }
  }

  /** Every sample carries `labels`: all are selected. */
  lemma {:induction false} LabelledAll(samples: seq<Sample>, labels: seq<string>)
    requires forall i :: 0 <= i < |samples| ==> samples[i].labels == labels
    ensures Labelled(samples, labels) == samples
  {
    if |samples| > 0 {
      LabelledAll(samples[1..], labels);
      assert samples == [samples[0]] + samples[1..];
    }
  }

  lemma {:induction false} OccurrencesConcat(a: seq<Sample>, b: seq<Sample>, d: Desc)
    ensures Occurrences(a + b, d) == Occurrences(a, d) + Occurrences(b, d)
  {
    if |a| > 0 {
      assert (a + b)[1..] == a[1..] + b;
      OccurrencesConcat(a[1..], b, d);
    } else {
      assert a + b == b;
    }
  }

  /** A descriptor that no sample uses occurs zero times. */
  lemma {:induction false} OccurrencesAbsent(samples: seq<Sample>, d: Desc)
    requires forall i :: 0 <= i < |samples| ==> samples[i].desc != d
    ensures Occurrences(samples, d) == 0
  {
    if |samples| > 0 {
      OccurrencesAbsent(samples[1..], d);
    }
  }

  lemma WellFormedConcat(a: seq<Sample>, b: seq<Sample>)
    requires WellFormed(a) && WellFormed(b)
    ensures WellFormed(a + b)
  {
    assert forall i :: 0 <= i < |a + b| ==> (a + b)[i] == if i < |a| then a[i] else b[i - |a|];
  }

  lemma DescsConcat(a: seq<Sample>, b: seq<Sample>)
    ensures Descs(a + b) == Descs(a) + Descs(b)
  {
  }

  lemma ValuesConcat(a: seq<Sample>, b: seq<Sample>)
    ensures Values(a + b) == Values(a) + Values(b)
  {
  }
}

=== FILE: services.dfy ===
/** The services group fetcher (bbox/service.go): a single request. */
module BboxServices {
  import opened Wrappers
  import opened BboxRecords
  import opened BboxApi

  const ServicesPath: string := "/services"

  function ServicesPlan(c: Client): seq<string> {
    [Url(c, ServicesPath)]
  }

  function AsServices(doc: Payload): Option<seq<ServicesInformations>> {
    if doc.ServicesDoc? then Some(doc.services) else None
  }

  /** getServicesInformations: one request to /services. */
  function GetServicesInformations(c: Client, server: Server): (r: Fetch<seq<ServicesInformations>>)
    ensures r.trace == [Url(c, ServicesPath)]
    ensures PassesErrors(r.result, server(Url(c, ServicesPath)))
    ensures forall xs :: r.result == Ok(xs) <==>
      server(Url(c, ServicesPath)) == Delivered(Json(ServicesDoc(xs)))
  {
    PrefixedPatternFormsUrl(ServicesPath, c.url);
    ApiRequest(c, server, "%s" + ServicesPath, AsServices)
  }

  /** getServicesMetrics: exactly one request, to /services; its error is
      returned as it is, and on success the group holds the delivered array. */
  function GetServicesMetrics(c: Client, server: Server): (r: Fetch<ServicesMetrics>)
    ensures r.trace == ServicesPlan(c)
    ensures PassesErrors(r.result, server(Url(c, ServicesPath)))
    ensures r.result.Err? <==> GetServicesInformations(c, server).result.Err?
    ensures r.result.Err? ==> r.result.error == GetServicesInformations(c, server).result.error
    ensures forall xs :: r.result == Ok(ServicesMetrics(xs)) <==>
      server(Url(c, ServicesPath)) == Delivered(Json(ServicesDoc(xs)))
  {
    var informations := GetServicesInformations(c, server);
    if informations.result.Err? then Fetch(Err(informations.result.error), informations.trace)
    else Fetch(Ok(ServicesMetrics(informations.result.value)), informations.trace)
  }
}

=== FILE: wan.dfy ===
/** The WAN group fetcher (bbox/wan.go): IP information, then IP counters,
    then FTTH state, stopping at the first failing request. These three
    patterns are the only ones in the fetch layer that begin with "%s". */
module BboxWan {
  import opened Wrappers
  import opened BboxRecords
  import opened BboxApi

  const WanIPPath: string := "/wan/ip"
  const WanStatsPath: string := "/wan/ip/stats"
  const FtthStatsPath: string := "/wan/ftth/stats"

  function WanPlan(c: Client): seq<string> {
    [Url(c, WanIPPath), Url(c, WanStatsPath), Url(c, FtthStatsPath)]
  }

  function AsWanIPInformations(doc: Payload): Option<seq<WanIPInformations>> {
    if doc.WanIPInformationsDoc? then Some(doc.wanIPInformations) else None
  }

  function AsWanIPStatistics(doc: Payload): Option<seq<WanIPStatistics>> {
    if doc.WanIPStatisticsDoc? then Some(doc.wanIPStatistics) else None
  }

  function AsFtthStatistics(doc: Payload): Option<seq<Ftth>> {
    if doc.FtthStatisticsDoc? then Some(doc.ftth) else None
  }

  /** getWanInformations: one request to /wan/ip. */
  function GetWanInformations(c: Client, server: Server): (r: Fetch<seq<WanIPInformations>>)
    ensures r.trace == [Url(c, WanIPPath)]
    ensures PassesErrors(r.result, server(Url(c, WanIPPath)))
    ensures forall xs :: r.result == Ok(xs) <==>
      server(Url(c, WanIPPath)) == Delivered(Json(WanIPInformationsDoc(xs)))
  {
    PrefixedPatternFormsUrl(WanIPPath, c.url);
    ApiRequest(c, server, "%s" + WanIPPath, AsWanIPInformations)
  }

  /** getWanStatistics: one request to /wan/ip/stats. */
  function GetWanStatistics(c: Client, server: Server): (r: Fetch<seq<WanIPStatistics>>)
    ensures r.trace == [Url(c, WanStatsPath)]
    ensures PassesErrors(r.result, server(Url(c, WanStatsPath)))
    ensures forall xs :: r.result == Ok(xs) <==>
      server(Url(c, WanStatsPath)) == Delivered(Json(WanIPStatisticsDoc(xs)))
  {
    PrefixedPatternFormsUrl(WanStatsPath, c.url);
    ApiRequest(c, server, "%s" + WanStatsPath, AsWanIPStatistics)
  }

  /** getWanFtthStatistics: one request to /wan/ftth/stats; the result is a
      pointer, and it is never nil when there is no error. */
  function GetWanFtthStatistics(c: Client, server: Server): (r: Fetch<Option<seq<Ftth>>>)
    ensures r.trace == [Url(c, FtthStatsPath)]
    ensures PassesErrors(r.result, server(Url(c, FtthStatsPath)))
    ensures r.result.Ok? ==> r.result.value.Some?
    ensures forall xs :: r.result == Ok(Some(xs)) <==>
      server(Url(c, FtthStatsPath)) == Delivered(Json(FtthStatisticsDoc(xs)))
  {
    PrefixedPatternFormsUrl(FtthStatsPath, c.url);
    var f := ApiRequest(c, server, "%s" + FtthStatsPath, AsFtthStatistics);
    Fetch(if f.result.Err? then Err(f.result.error) else Ok(Some(f.result.value)), f.trace)
  }

  function WanSteps(c: Client, server: Server): seq<Step> {
    [Summary(GetWanInformations(c, server)), Summary(GetWanStatistics(c, server)), Summary(GetWanFtthStatistics(c, server))]
  }

  /** getWanMetrics: the three requests in order, fail-fast; on success the
      fields hold the delivered arrays, the FTTH pointer is set, and the
      diagnostics stay empty because nothing here requests them. */
  function GetWanMetrics(c: Client, server: Server): (r: Fetch<WanMetrics>)
    ensures FailFast(r, WanSteps(c, server))
    ensures r.result.Ok? ==>
      && server(Url(c, WanIPPath)) == Delivered(Json(WanIPInformationsDoc(r.result.value.ipInformations)))
      && server(Url(c, WanStatsPath)) == Delivered(Json(WanIPStatisticsDoc(r.result.value.ipStatistics)))
      && r.result.value.ftthStatistics.Some?
      && server(Url(c, FtthStatsPath)) == Delivered(Json(FtthStatisticsDoc(r.result.value.ftthStatistics.value)))
      && r.result.value.diagnosticsStatistics == []
  {
    var informations := GetWanInformations(c, server);
    TracesSnoc(WanSteps(c, server), 0);
    TracesSnoc(WanSteps(c, server), 1);
    TracesSnoc(WanSteps(c, server), 2);
    if informations.result.Err? then Fetch(Err(informations.result.error), informations.trace)
    else
      var stats := GetWanStatistics(c, server);
      if stats.result.Err? then Fetch(Err(stats.result.error), informations.trace + stats.trace)
      else
        var ftth := GetWanFtthStatistics(c, server);
        var trace := informations.trace + stats.trace + ftth.trace;
        if ftth.result.Err? then Fetch(Err(ftth.result.error), trace)
        else
          Fetch(Ok(WanMetrics(informations.result.value, stats.result.value, ftth.result.value, [])), trace)
  }

  /** The WAN group requests a prefix of /wan/ip, /wan/ip/stats,
      /wan/ftth/stats, and all three when it succeeds. */
  lemma WanFollowsPlan(c: Client, server: Server)
    ensures GetWanMetrics(c, server).trace <= WanPlan(c)
    ensures GetWanMetrics(c, server).result.Ok? ==> GetWanMetrics(c, server).trace == WanPlan(c)
  {
    var plans := [[Url(c, WanIPPath)], [Url(c, WanStatsPath)], [Url(c, FtthStatsPath)]];
    FailFastFollowsPlan(GetWanMetrics(c, server), WanSteps(c, server), plans);
    FlattenSingletons(plans, WanPlan(c));
  }
}

=== FILE: wireless.dfy ===
/** The Wi-Fi group fetcher (bbox/wireless.go): statistics of one band per
    request; only the 2.4 GHz band is fetched. */
module BboxWireless {
  import opened Wrappers
  import opened BboxRecords
  import opened BboxApi

  /** The path of the statistics of band `which` ("24" or "5"). */
  function WirelessPath(which: string): string {
    "/wireless/" + which + "/stats"
  }

  function AsWireless(doc: Payload): Option<seq<WirelessStatistics>> {
    if doc.WirelessDoc? then Some(doc.wireless) else None
  }

  /** getWirelessStatistics(which): one request to /wireless/<which>/stats. */
  function GetWirelessStatistics(c: Client, server: Server, which: string): (r: Fetch<seq<WirelessStatistics>>)
    requires '%' !in which
    ensures r.trace == [Url(c, WirelessPath(which))]
    ensures PassesErrors(r.result, server(Url(c, WirelessPath(which))))
    ensures forall xs :: r.result == Ok(xs) <==>
      server(Url(c, WirelessPath(which))) == Delivered(Json(WirelessDoc(xs)))
  {
    assert '%' !in WirelessPath(which);
    PrefixedPatternFormsUrl(WirelessPath(which), c.url);
    ApiRequest(c, server, "%s" + WirelessPath(which), AsWireless)
  }

  /** getWirelessMetrics: only band "24" is requested; the 5 GHz statistics
      stay empty. */
  function GetWirelessMetrics(c: Client, server: Server): (r: Fetch<WirelessMetrics>)
    ensures r.trace == [Url(c, WirelessPath("24"))]
    ensures PassesErrors(r.result, server(Url(c, WirelessPath("24"))))
    ensures r.result.Err? <==> GetWirelessStatistics(c, server, "24").result.Err?
    ensures r.result.Err? ==> r.result.error == GetWirelessStatistics(c, server, "24").result.error
    ensures r.result.Ok? ==> r.result.value.wireless5GhzStatistics == []
    ensures forall xs :: r.result == Ok(WirelessMetrics([], xs)) <==>
      server(Url(c, WirelessPath("24"))) == Delivered(Json(WirelessDoc(xs)))
  {
    var band24 := GetWirelessStatistics(c, server, "24");
    if band24.result.Err? then Fetch(Err(band24.result.error), band24.trace)
    else Fetch(Ok(WirelessMetrics([], band24.result.value)), band24.trace)
  }
}

=== FILE: wrappers.dfy ===
/** Failure-carrying datatypes shared by the fetch layer and the exporter. */
module Wrappers {

  /** A value that may be absent; models a Go pointer that may be nil. */
  datatype Option<+T> = None | Some(value: T)

  /** Either a value or the error that prevented computing it; models Go's
      `(value, error)` return pairs. */
  datatype Result<+T, +E> = Ok(value: T) | Err(error: E)
}
